=== FILE: README.md ===
# TripLedger core in Dafny

TripLedger is a travel-expense tracker. Its logic is small and sits under a React interface:

- **Stores.** Three in-memory services keep trips, expenses and exchange rates.
  - The expense service also keeps the registries of categories and payment modes.
  - Creating an entry refuses a name that matches an existing one ignoring case, and gives the new entry the slug of its name as id. Updates check neither: they can set any name or id. Two names that differ only in their whitespace pass the check and get the same id.
  - Six default ids of each kind cannot be deleted.
- **Conversion and budgets.** The pages convert each expense into its trip's currency and add up a trip's spending.
  - The total is also shown as a percentage of the budget, coloured by three tiers.
- **Lists.** The pages keep their own copy of the expense list, filter it by category, and look up category and payment-mode details with fallbacks.
- **Calendar.** A calendar buckets expenses by day into a month grid and a week strip.
- **Forms.** Two forms validate their fields before submitting.

The model is functional:

- A store is a `seq` of immutable records.
- Every service call is a pure function returning `Result<(seq<T>, T), StoreError>`. A failed call returns only the error, so the caller's list stands.
- Amounts are exact `real`s; dates are integer day numbers, with day 0 a Sunday.
- Fresh ids and timestamps (`Date.now()`, `new Date()`) are parameters.

Modules:

- `Wrappers`: Option and Result.
- `Text`: ASCII case folding, whitespace trimming and slugs.
- `Seqs`: `filter`, `map`, `findIndex` and `splice` on sequences.
- `Records`: the records and `{ ...old, ...updates }` merges.
- `Store`: what the three services share.
- `Registry`: duplicate names and protected defaults.
- `TripService`, `ExchangeRateService`, `ExpenseService`: the services.
- `Conversion`: `convertCurrency`.
- `Budget`: trip statistics and colour tiers.
- `Projections`: the page lists, lookups and the expense card.
- `ExpensePage`: the expense form, submission, and the page list kept in step with the store.
- `Calendar`: the calendar view.
- `FormErrors`, `TripForm`, `CategoryForm`: the two validating forms.

Budget progress is capped at 100 on the trip cards, but MainFeature.jsx keeps its `budgetProgress` uncapped and caps only the bar width (`Budget.BudgetProgress`, `Budget.BarWidth`).

## Model

| member | source | states |
|---|---|---|
| Records.MergeKeepsId | src/services/api/expenseService.js:55 | an update object renames a record only when it carries an `id` key, for all five record kinds |
| Records.MergeExpenseFields | src/services/api/expenseService.js:55 | after `{ ...old, ...updates }` every field the update omits keeps its old value and every field it carries takes the new one |
| Records.MergeIdempotent | src/services/api/tripService.js:35 | applying the same update object twice equals applying it once |
| Seqs.FirstIndex | src/services/api/expenseService.js:52 | `findIndex`: the least index whose element satisfies the test, none exactly when no element does |
| Seqs.Filter | src/components/pages/HomePage.jsx:111 | `filter`: only elements that pass, every passing element kept, no longer than the input |
| Seqs.FilterConcat | src/components/pages/HomePage.jsx:111 | filtering a concatenation is concatenating the filtered parts, so order is kept |
| Seqs.FilterIdempotent | src/components/pages/HomePage.jsx:182-184 | filtering twice by the same test equals filtering once |
| Seqs.RemoveAt | src/services/api/expenseService.js:64 | `splice(k, 1)`: one shorter, elements before `k` in place and later ones shifted down by one |
| Seqs.FilterDropsOne | src/components/pages/HomePage.jsx:169 | a filter that rejects exactly one position equals removing that position |
| Seqs.Map | src/components/pages/HomePage.jsx:145-147 | `map`: same length, each element transformed in place |
| Seqs.FilterMap | src/pages/Home.jsx:195-197 | mapping with a step that keeps the filter's verdict commutes with filtering |
| Seqs.FilterCommute | src/components/pages/HomePage.jsx:169 | two filters may be applied in either order |
| Store.IndexOf | src/services/api/expenseService.js:52 | the index `findIndex` returns for an id, none exactly when no record carries it |
| Store.GetById | src/services/api/tripService.js:13-17 | `getById`: the first record with the id, or none exactly when no record has it |
| Store.Update | src/services/api/expenseService.js:50-57 | an unknown id fails with the given error; otherwise only the first record with the id becomes its merge, every other position unchanged |
| Store.Delete | src/services/api/expenseService.js:59-66 | an unknown id fails; otherwise the first record with the id is returned and removed, the others keeping their order |
| Store.CreateThenGet | src/services/api/expenseService.js:39-48 | a record appended under an unused id is what `getById` finds, and ids stay unique |
| Store.UpdateThenGet | src/services/api/tripService.js:30-37 | an update that keeps the id is seen by `getById`, every other id finds what it found before, and ids stay unique |
| Store.DeleteThenGet | src/services/api/tripService.js:39-46 | with unique ids a deleted id is no longer found, other ids are unaffected, and ids stay unique |
| Store.RemoveKeepsUnique | src/services/api/expenseService.js:64 | removing one record keeps the remaining ids unique |
| Store.GetOtherAfterRemove | src/services/api/expenseService.js:64 | removing one record does not change what any other id finds |
| Registry.Create | src/services/api/expenseService.js:74-89 | fails exactly when some existing name equals the new name ignoring case; otherwise appends the entry |
| Registry.Delete | src/services/api/expenseService.js:101-114 | a default id is refused before any lookup; an unknown id is not found; otherwise exactly the first entry with the id is removed, and every present non-default id succeeds |
| Registry.CreateKeepsDistinct | src/services/api/expenseService.js:76-88 | creation keeps the names pairwise distinct ignoring case |
| Registry.DeleteKeepsDistinctAndDefaults | src/services/api/expenseService.js:101-114 | deletion keeps names distinct and never removes an entry with a default id |
| TripService.GetById | src/services/api/tripService.js:13-17 | the first trip with the id, or none exactly when no trip has it |
| TripService.Create | src/services/api/tripService.js:19-28 | appends exactly one trip at the end with the fresh id and status `active`, whatever status was given; every other field as given |
| TripService.Update | src/services/api/tripService.js:30-37 | "Trip not found" exactly on an unknown id; otherwise only the first matching trip changes, to its merge with the patch |
| TripService.Delete | src/services/api/tripService.js:39-46 | "Trip not found" exactly on an unknown id; otherwise removes and returns the first matching trip, the rest in order |
| TripService.TripReadAfterWrite | src/services/api/tripService.js:13-46 | with unique ids, create, update and delete are each seen by `getById`, leave other ids' lookups unchanged, and keep ids unique |
| ExchangeRateService.GetById | src/services/api/exchangeRateService.js:13-17 | the first rate with the id, or none exactly when no rate has it |
| ExchangeRateService.Create | src/services/api/exchangeRateService.js:19-28 | appends one rate whose id and timestamp are the store's, overriding the input's, with currencies and rate as given |
| ExchangeRateService.Update | src/services/api/exchangeRateService.js:30-37 | "Exchange rate not found" exactly on an unknown id; otherwise only the first matching rate becomes its merge with the patch |
| ExchangeRateService.Delete | src/services/api/exchangeRateService.js:39-46 | "Exchange rate not found" exactly on an unknown id; otherwise removes the first matching rate, the rest in order |
| ExchangeRateService.RateReadAfterWrite | src/services/api/exchangeRateService.js:13-46 | with unique ids, create, update and delete are each seen by `getById`, leave other ids' lookups unchanged, and keep ids unique |
| ExpenseService.GetById | src/services/api/expenseService.js:33-37 | the first expense with the id, or none exactly when no expense has it |
| ExpenseService.Create | src/services/api/expenseService.js:39-48 | appends exactly one expense at the end with the fresh id; payment mode `cash` when none was given; every other field as given |
| ExpenseService.Update | src/services/api/expenseService.js:50-57 | "Expense not found" exactly on an unknown id; otherwise only the first matching expense becomes its merge with the patch |
| ExpenseService.Delete | src/services/api/expenseService.js:59-66 | "Expense not found" exactly on an unknown id; otherwise removes and returns the first matching expense, the rest in order |
| ExpenseService.CreateFresh | src/services/api/expenseService.js:39-48 | with an unused id the created expense is what `getById` finds, and unique ids stay unique |
| ExpenseService.ExpenseReadAfterWrite | src/services/api/expenseService.js:50-66 | with unique ids, update and delete are seen by `getById`, leave other ids' lookups unchanged, and keep ids unique |
| ExpenseService.CreateCategory | src/services/api/expenseService.js:74-90 | "Category with this name already exists" exactly when a name matches ignoring case; otherwise appends a category whose id is the slug of the name |
| ExpenseService.UpdateCategory | src/services/api/expenseService.js:92-99 | "Category not found" exactly on an unknown id; otherwise the first match becomes its merge, unchecked for duplicates or protection |
| ExpenseService.DeleteCategory | src/services/api/expenseService.js:101-114 | the six default ids are refused before any lookup; an unknown id is not found; every present non-default id succeeds, removing exactly the first match |
| ExpenseService.CategoryInvariants | src/services/api/expenseService.js:74-114 | creating and deleting categories keep names distinct ignoring case, and deleting keeps every default category |
| ExpenseService.CreatePaymentMode | src/services/api/expenseService.js:122-139 | the duplicate-name and slug rules of categories, with icon `MoreHorizontal` when none is given |
| ExpenseService.UpdatePaymentMode | src/services/api/expenseService.js:141-148 | "Payment mode not found" exactly on an unknown id; otherwise the first match becomes its merge, unchecked |
| ExpenseService.DeletePaymentMode | src/services/api/expenseService.js:150-163 | the six default mode ids are refused before any lookup; an unknown id is not found; every present non-default id succeeds, removing exactly the first match |
| ExpenseService.PaymentModeInvariants | src/services/api/expenseService.js:122-163 | creating and deleting modes keep names distinct ignoring case, and deleting keeps every default mode |
| ExpenseService.DefaultsProtected | src/services/api/expenseService.js:104-107 | deleting the id of any starting category or payment mode fails, whatever the list holds |
| ExpenseService.DefaultIdsListed | src/services/api/expenseService.js:7-24 | every starting category and mode carries one of the protected ids |
| ExpenseService.DefaultsDistinct | src/services/api/expenseService.js:7-24 | the starting categories and modes already have names distinct ignoring case |
| ExpenseService.SlugCollisionNotChecked | src/services/api/expenseService.js:83-88 | two names differing only in the length of a whitespace run both pass the duplicate check and get the same id |
| ExpenseService.SlugOfWords | src/services/api/expenseService.js:84 | two words joined by any whitespace run slug to the lower-cased words joined by one `-` |
| ExpenseService.UpdateCanRenameDefault | src/services/api/expenseService.js:92-99 | `updateCategory` can move a default category to a new id, after which the default id is no longer found |
| Text.LowerChar | src/services/api/expenseService.js:77 | an ASCII capital becomes the small letter at the same position of the alphabet; every other character is unchanged |
| Text.Lower | src/services/api/expenseService.js:77 | `toLowerCase`: same length, and each character is that character lowered; no capital is left |
| Text.EqualsIgnoringCaseIff | src/services/api/expenseService.js:76-78 | the duplicate-name comparison holds exactly when the names have the same length and each pair of characters is equal or the same ASCII letter in different cases |
| Text.LowerIdempotent | src/services/api/expenseService.js:77 | lowering twice equals lowering once |
| Text.TrimStart | src/components/organisms/TripForm.jsx:44 | the suffix left after the leading whitespace, which does not start with whitespace |
| Text.TrimEnd | src/components/organisms/TripForm.jsx:44 | the prefix left before the trailing whitespace, which does not end with whitespace |
| Text.Trim | src/components/organisms/TripForm.jsx:44 | `trim()`: the slice between leading and trailing whitespace, with neither end whitespace; empty exactly for an all-whitespace string |
| Text.TrimIdempotent | src/components/organisms/CategoryForm.jsx:44-47 | trimming twice equals trimming once |
| Text.CollapseSpaces | src/services/api/expenseService.js:84 | `replace(/\s+/g, '-')`: the result has no whitespace and is no longer than the input |
| Text.CollapseNoSpace | src/services/api/expenseService.js:84 | text without whitespace passes through the replacement unchanged |
| Text.CollapseRun | src/services/api/expenseService.js:84 | a whitespace run before a non-space becomes exactly one `-` |
| Text.CollapseBetweenWords | src/services/api/expenseService.js:84 | two words joined by any whitespace run become the words joined by one `-` |
| Text.Slugify | src/services/api/expenseService.js:84 | the derived id has no whitespace and no upper-case letter, is no longer than the name, and is the lower-cased name when the name has no whitespace |
| Text.SlugIgnoresCase | src/services/api/expenseService.js:76-84 | names equal ignoring case get the same id |
| Text.SlugIdempotent | src/services/api/expenseService.js:84 | a slug is its own slug |
| Text.OrElse | src/services/api/expenseService.js:44 | `s \|\| fallback` on a string: the string unless it is empty |
| Text.Utf16Length | src/components/organisms/CategoryForm.jsx:29 | JavaScript's `length`: between the number of characters and twice that |
| Text.Utf16LengthIff | src/components/organisms/CategoryForm.jsx:29 | the length equals the character count exactly when every character is in the Basic Multilingual Plane, and is twice it exactly when none is |
| Conversion.FindRate | src/components/pages/HomePage.jsx:120-122 | the first rate record from `from` to `to` in that direction, none exactly when no record matches |
| Conversion.RateOf | src/components/pages/HomePage.jsx:120-123 | the rate of the first record for this direction |
| Conversion.Convert | src/components/pages/HomePage.jsx:117-124 | the same amount for equal currencies; otherwise the amount times the first direct rate, or the amount unchanged when there is none |
| Conversion.DirectionMatters | src/components/pages/HomePage.jsx:120-122 | with no record for exactly this direction, even with one for the reverse, the amount comes back unconverted |
| Conversion.FirstMatchWins | src/components/MainFeature.jsx:49-53 | once a matching record exists, records appended after it never change the result |
| Conversion.FindRateAppend | src/components/MainFeature.jsx:49-51 | `find` over an extended list returns the same record when the original already has a match |
| Conversion.ConvertAdditive | src/components/pages/HomePage.jsx:123 | converting a sum equals summing the conversions |
| Conversion.ConvertExample | src/components/pages/HomePage.jsx:117-124 | a USD→EUR rate of 0.9 turns 100 into 90 |
| Budget.SpendOf | src/components/pages/HomePage.jsx:112 | `convertedAmount \|\| amount`: the converted amount when present and non-zero, else the raw amount |
| Budget.SumConcat | src/components/pages/HomePage.jsx:112 | the total of a concatenation is the sum of the totals |
| Budget.SumNonNegative | src/components/pages/HomePage.jsx:112 | with no negative amounts the total is not negative |
| Budget.TripExpenses | src/components/pages/HomePage.jsx:111 | only expenses of the trip, and every expense of the trip |
| Budget.TotalAfterAppend | src/pages/Home.jsx:62-64 | appending an expense raises its own trip's total by its spend and no other trip's |
| Budget.TotalIgnoresOtherTrips | src/pages/Home.jsx:63 | expenses of other trips never change a trip's total |
| Budget.Cap | src/components/pages/HomePage.jsx:113 | `Math.min(x, 100)`: at most 100 and at most `x`, equal to one of them |
| Budget.CalculateTripStats | src/pages/Home.jsx:62-69 | total of the trip's expenses; remaining is budget minus total, negative exactly when over budget; progress is total/budget×100, capped, and 100 exactly when the total reaches the budget |
| Budget.ProgressInRange | src/components/pages/HomePage.jsx:113 | with non-negative amounts the capped progress lies in [0, 100] |
| Budget.BudgetProgress | src/components/MainFeature.jsx:126-127 | MainFeature's progress is total/budget×100 uncapped, above 100 exactly when over budget |
| Budget.BarWidth | src/components/MainFeature.jsx:166 | the bar width is at most 100 and equals the progress when that is at most 100 |
| Budget.MainFeatureAgreesWithCard | src/components/MainFeature.jsx:126-127 | on a list holding only the trip's expenses, MainFeature's total equals the card's, and its capped bar width equals the card's progress |
| Budget.OverviewRemaining | src/components/organisms/TripOverview.jsx:51 | the shown remaining amount plus the total is the budget, negative exactly when over budget |
| Budget.OverviewMatchesStats | src/components/organisms/TripOverview.jsx:51 | the overview's remaining amount is the stats' unclamped `remaining` |
| Budget.OverBudgetExample | src/pages/Home.jsx:65-66 | budget 1000 with 1500 spent: progress 100 while remaining is -500 |
| Budget.TierOf | src/components/organisms/TripOverview.jsx:9-13 | critical exactly at 90 and above, warning exactly in [75, 90), normal exactly below 75 |
| Budget.TierMonotone | src/components/organisms/TripOverview.jsx:9-13 | more progress never gives a lower tier |
| Budget.BarColorClass | src/components/organisms/HeroSection.jsx:9-13 | the bar class is the tier's colour: red, amber or green |
| Budget.TextColorClass | src/components/organisms/HeroSection.jsx:15-19 | the text class is the tier's colour on the same boundaries |
| Budget.BarAndTextAgree | src/components/organisms/HeroSection.jsx:9-19 | for every progress value, bar and text show the same colour |
| Budget.SmallSpendIsNormal | src/components/pages/HomePage.jsx:113 | 55 spent of 1000 is 5.5% and in the normal tier |
| Budget.StatusHue | src/components/organisms/HeroSection.jsx:21-23 | green exactly for `active`, blue exactly for `completed`, gray for any other status |
| Budget.NewTripIsGreen | src/services/api/tripService.js:19-28 | a newly created trip always shows the green badge |
| Projections.FilterByCategory | src/components/pages/HomePage.jsx:182-184 | `all` keeps the whole list; otherwise exactly the expenses of that category, each as often as in the input |
| Projections.FilterByCategoryIdempotent | src/components/pages/HomePage.jsx:182-184 | applying the filter twice equals applying it once |
| Projections.FilterByCategoryKeepsOrder | src/components/MainFeature.jsx:122-124 | the filter of a concatenation is the concatenation of the filters, so list order is kept |
| Projections.ReplaceById | src/components/pages/HomePage.jsx:145-147 | same length; every record with the updated id replaced, every other record unchanged |
| Projections.RemoveById | src/components/pages/HomePage.jsx:169 | no record with the id remains, every other record does, and the list does not grow |
| Projections.PageMirrorsStore | src/pages/Home.jsx:190-203 | with unique ids, appending the created record, replacing the updated one and removing the deleted id each give exactly the store's new list |
| Projections.RemoveUnique | src/components/pages/HomePage.jsx:169 | with unique ids, removing by id is removing the one position that carries it |
| Projections.GetCategoryInfo | src/components/organisms/ExpenseList.jsx:7-9 | the first category with the id; else the fourth category, which is missing on a list shorter than four |
| Projections.PageCategoryFallback | src/components/MainFeature.jsx:129-131 | on the pages' four categories the lookup never fails, and an unknown id shows as `other` |
| Projections.GetPaymentModeInfo | src/components/organisms/ExpenseList.jsx:11-13 | the first mode with the id; an unknown id or a missing list both give name `Cash` and icon `Banknote` |
| Projections.PaymentModeIcon | src/components/molecules/ExpenseCard.jsx:24-34 | both card modes map to `CreditCard`, and any mode that is not a default maps to `MoreHorizontal` |
| Projections.IconTableMatchesDefaults | src/components/molecules/ExpenseCard.jsx:24-34 | the card's icon table agrees with the icon of every default payment mode |
| Projections.ExpenseCardView | src/components/molecules/ExpenseCard.jsx:42-82 | missing category info or an empty icon or name shows `Package` and `Other`; missing mode info or an empty mode name shows `Cash`; otherwise the looked-up icon and names; the currency tag shows exactly for a foreign currency |
| Projections.ExpenseListView | src/components/organisms/ExpenseList.jsx:15-30 | the header count and the number of cards equal the list's length, one card per expense in order; each card's currency tag shows exactly for a foreign currency; without a mode list every card names `Cash`; an unknown category on a list of at most three shows `Package` and `Other` |
| Projections.HomePageNamesEveryModeCash | src/components/pages/HomePage.jsx:237-244 | HomePage passes ExpenseList no payment modes, so every card names the mode `Cash` |
| ExpensePage.ResetForm | src/components/MainFeature.jsx:85-93 | after a submit the form cannot be submitted again: it holds the trip's currency, category `meals` and today, with no payment mode and empty merchant, notes and receipt |
| ExpensePage.BlankForm | src/components/organisms/ExpenseForm.jsx:19-28 | the blank form: the trip's currency or `USD`, category `meals`, paid in cash, dated today, no amount |
| ExpensePage.EditForm | src/components/organisms/ExpenseForm.jsx:31-42 | the form filled from an expense can be submitted and carries its amount; with a payment-mode field a missing mode shows as cash, without one the field is absent |
| ExpensePage.ExpenseData | src/components/pages/HomePage.jsx:126-141 | the data sent carries no id, the selected trip's id, the amount, the amount converted into the trip's currency, and the placeholder receipt when none was given |
| ExpensePage.Submit | src/components/pages/HomePage.jsx:143-158 | a new expense is appended to both store and page list with the fresh id, trip, conversion, `cash` and placeholder defaults; an edit on an unknown id changes nothing; an edit keeps both lengths |
| ExpensePage.DeleteExpense | src/components/pages/HomePage.jsx:166-175 | an unknown id changes nothing; otherwise the first expense with the id leaves the store, which keeps the rest in order, and the page list keeps exactly the records with other ids |
| ExpensePage.LoadIsInSync | src/components/pages/HomePage.jsx:62-71 | loading shows exactly the trip's expenses, which sets up the page invariant |
| ExpensePage.SubmitKeepsSync | src/components/pages/HomePage.jsx:143-153 | after a submit the page list is still exactly the trip's expenses in the store, in store order |
| ExpensePage.UpdateKeepsSync | src/components/pages/HomePage.jsx:143-147 | replacing the updated expense by id keeps the page list equal to the trip's expenses in the store |
| ExpensePage.UpdatedStaysOnTrip | src/components/pages/HomePage.jsx:134-136 | the updated expense keeps its id and carries the selected trip's id |
| ExpensePage.DeleteKeepsSync | src/components/pages/HomePage.jsx:166-169 | deleting keeps the page list equal to the trip's expenses in the store |
| ExpensePage.SaveUntouchedForm | src/components/organisms/ExpenseForm.jsx:31-42 | saving an unchanged edit form for an expense of the trip with a receipt gives back the same expense, except for a recomputed conversion and a missing mode becoming cash |
| ExpensePage.ForeignExpenseExample | src/components/pages/HomePage.jsx:126-141 | 50 EUR on a 1000 USD trip at EUR→USD 1.1 is stored as 55, which is 5.5% and normal |
| Calendar.Weekday | src/components/organisms/CalendarView.jsx:27-28 | the weekday lies in 0..6 |
| Calendar.StartOfWeek | src/components/organisms/CalendarView.jsx:27 | the Sunday on or before the day, within the same seven days |
| Calendar.EndOfWeek | src/components/organisms/CalendarView.jsx:28 | the Saturday on or after the day, within the same seven days |
| Calendar.ExpensesOn | src/components/organisms/CalendarView.jsx:30-35 | only expenses dated that day, and every expense dated that day |
| Calendar.ExpensesOnKeepsOrder | src/components/organisms/CalendarView.jsx:30-35 | bucketing a concatenation concatenates the buckets, so list order is kept |
| Calendar.RowCount | src/components/organisms/CalendarView.jsx:25-28 | at least one row, and seven days per row reach exactly from the first Sunday to the last Saturday |
| Calendar.WeekRow | src/components/organisms/CalendarView.jsx:68-85 | the inner loop yields exactly seven cells, the c-th being the cell of the c-th day from its start |
| Calendar.WeekRows | src/components/organisms/CalendarView.jsx:67-92 | from the first Sunday while the date has not passed the last Saturday: exactly as many rows as the weeks spanned, seven cells each, cell (r, c) that of day start+7r+c |
| Calendar.MonthGrid | src/components/organisms/CalendarView.jsx:67-92 | rows of seven day cells, cell (r, c) holding day start+7r+c with its expenses and month flag; first cell the week start of the 1st, last cell the week end of the last day |
| Calendar.DayHasOneCell | src/components/organisms/CalendarView.jsx:67-92 | every day in the grid's range has exactly one cell, flagged current-month exactly when inside the month |
| Calendar.ExpenseInOneCell | src/components/organisms/CalendarView.jsx:67-92 | an expense dated within the grid is listed in exactly one cell, the cell of its day |
| Calendar.CellHoldsItsDay | src/components/organisms/CalendarView.jsx:69 | a cell lists an expense exactly when the expense falls on the cell's date |
| Calendar.WeekDays | src/components/organisms/CalendarView.jsx:104-110 | seven consecutive days from Sunday to Saturday that include the current day |
| Calendar.Next | src/components/organisms/CalendarView.jsx:230-238 | month mode steps one month; week mode seven days, keeping the weekday; day mode one day |
| Calendar.Previous | src/components/organisms/CalendarView.jsx:220-228 | month mode steps one month back; week mode seven days back; day mode one day back |
| Calendar.StepsUndo | src/components/organisms/CalendarView.jsx:220-238 | in week and day mode next and previous undo each other |
| Calendar.NextWeekIsFollowingWeek | src/components/organisms/CalendarView.jsx:230-238 | in week mode next shows the following week, each day moved on by seven |
| Calendar.CategoryColor | src/components/organisms/CalendarView.jsx:37-46 | fixed colours for the four page categories, and gray exactly for any other id |
| FormErrors.ClearFieldError | src/components/organisms/TripForm.jsx:31-39 | editing a field empties that field's error when it has one; every other error and the set of fields stay as they were |
| FormErrors.ClearCommutes | src/components/organisms/TripForm.jsx:36-38 | clearing a field's error twice equals clearing it once, and two fields' errors can be cleared in either order |
| TripForm.Validate | src/components/organisms/TripForm.jsx:41-75 | an error exactly for a blank name or destination, a missing date, an end not after the start, or a missing or non-positive budget, with each message as written |
| TripForm.ValidIff | src/components/organisms/TripForm.jsx:74 | the form is valid exactly when both texts are non-blank, both dates are present with end after start, and the budget is positive |
| TripForm.Submit | src/components/organisms/TripForm.jsx:77-90 | a trip is handed on exactly when the form is valid, carrying the fields and the parsed budget |
| TripForm.SubmittedTripIsWellFormed | src/components/organisms/TripForm.jsx:60-71 | a submitted trip has a positive budget and ends after it starts |
| CategoryForm.Validate | src/components/organisms/CategoryForm.jsx:24-35 | a name error exactly when the trimmed name is shorter than two UTF-16 code units, as JavaScript's `length` counts: "required" when blank, "at least 2 characters" at one unit; two characters always suffice |
| CategoryForm.ValidIff | src/components/organisms/CategoryForm.jsx:24-35 | the form is valid exactly when its trimmed name is at least two UTF-16 code units long |
| CategoryForm.Submit | src/components/organisms/CategoryForm.jsx:37-52 | a valid form hands on the trimmed name and description and resets; an invalid one keeps its fields and shows the errors |
| CategoryForm.Close | src/components/organisms/CategoryForm.jsx:54-58 | closing empties the fields and the errors |
| CategoryForm.SubmittedNameIsClean | src/components/organisms/CategoryForm.jsx:44-47 | a submitted name is at least two UTF-16 code units long, is already trimmed and would itself pass validation |
| CategoryForm.SingleEmojiNameIsValid | src/components/organisms/CategoryForm.jsx:29 | a name of one emoji is two code units long and so passes the length check |

## Left out

- Promises, `delay` and `setTimeout`, React state and effects, toasts, `confirm` and routing are not modelled. Each service call is one pure step.
- `Date.now()` ids and the `new Date()` timestamp are the parameters `newId` and `now`. Their freshness is a precondition where a lemma needs it.
- `getAll` and the mock JSON seed data are not modelled: a store starts from any list.
- `parseFloat` of the amount and budget inputs is not modelled: a number input is an already parsed `Option<real>`.
- `toFixed`, `toLocaleString` and `Intl.NumberFormat` formatting are not modelled.
- IEEE-754 floating point is not modelled: amounts, rates and percentages are exact reals.
- date-fns is replaced by day numbers with weekday `d % 7`. A cell's `isToday` flag depends on the clock and is not modelled.
  - `parseISO`, `isSameDay`, `isSameMonth` and time zones are not modelled.
  - The month's first and last day are inputs.
  - `addMonths` and `subMonths` are a function parameter, because their end-of-month clamping is date-fns's own.
- Calendar.StepsUndo: does not cover month mode, because `addMonths` clamps to the month's end and so does not undo `subMonths` in general.
- `toLowerCase` is ASCII case folding, and `\s` and `trim()` use a fixed whitespace set of space, tab, newline, carriage return, vertical tab and form feed. Unicode case mapping and Unicode spaces are not modelled.
- A zero trip budget is not modelled. Home.jsx:66 divides by the budget without a guard, and the trip form rejects any budget that is not positive, so Budget.CalculateTripStats, Budget.BudgetProgress and Budget.ProgressInRange require a positive budget.
- The colour lookups `colors[id]` and `modeIcons[id]` are string comparisons here. Object-prototype keys such as `constructor` are not modelled.
- Budget.StatusHue: states the badge's hue, not the full light and dark class strings the badge concatenates from it.
- Budget.BarColorClass and Budget.TextColorClass: state the class through the tier's colour name. Home.jsx's `getBudgetColor` is the same function as the text class.
- Budget.TripExpenses: its contract states which expenses are kept. The order comes from its definition through Seqs.Filter, and Seqs.FilterConcat states that order is kept.
- Projections.RemoveById: its contract states which records are kept. Order is stated by Projections.PageMirrorsStore, and through Seqs.FilterDropsOne for a unique id.
- ExpensePage.Submit: states the lengths and a created expense's contents. That the page list stays equal to the store's trip expenses is ExpensePage.SubmitKeepsSync, under the preconditions that lemma names.
- The presentation components are not modelled: App.jsx, NotFound.jsx, Header, FormField, Button, Input, Select, Label, Icon, Text, Badge, ReceiptModal, CategoryFilter, TripSelector, ProgressCircle and the Tailwind configuration. ProgressCircle's capped width is Budget.BarWidth.
- CalendarPage, ManageCategoriesPage, ManagePaymentModesPage, NewTripPage and CalendarDay are not modelled: they add no rules of their own.
  - CalendarPage is not routed in src/App.jsx.
  - The disabled delete button for default modes mirrors ExpenseService.DeletePaymentMode.
- ExpenseForm.jsx is modelled only for its initial and edit values (ExpensePage.BlankForm, ExpensePage.EditForm).
- The empty-state text of ExpenseList.jsx (lines 44-46) is not modelled. It is shown only for an empty list, where `expenses.some(...)` is false. Because of operator precedence, the callback of its `find` returns `expenses[0]?.category`, which is undefined there, so no category name is ever found.
- Three gaps in the source are kept as the source has them, not fixed:
  - `updateCategory` and `updatePaymentMode` check neither duplicates nor protection and may change the id. This is recorded as ExpenseService.UpdateCanRenameDefault.
  - Two names that differ only in whitespace get the same id. This is recorded as ExpenseService.SlugCollisionNotChecked.
  - Deleting a trip leaves its expenses in the expense store. This holds by construction, since TripService.Delete takes only the trip list.

=== FILE: budget.dfy ===
/** Budget aggregation and its colour tiers: `calculateTripStats` (Home.jsx and
    HomePage.jsx), the uncapped totals of MainFeature.jsx, the remaining amount of
    TripOverview.jsx, and the threshold colours of Home.jsx, HeroSection.jsx,
    TripOverview.jsx and MainFeature.jsx. Every division is by a trip budget, which
    TripForm.jsx only lets through when positive. */
module Budget {
  import opened Records
  import Seqs
  import TripService

  /** `expense.convertedAmount || expense.amount`: a missing or zero converted amount
      falls back to the raw amount. */
  function SpendOf(e: Expense): (r: real)
    ensures e.convertedAmount.Some? && e.convertedAmount.value != 0.0 ==> r == e.convertedAmount.value
    ensures e.convertedAmount.None? || e.convertedAmount.value == 0.0 ==> r == e.amount
  {
    if e.convertedAmount.Some? && e.convertedAmount.value != 0.0 then e.convertedAmount.value else e.amount
  }

  /** `reduce((sum, e) => sum + SpendOf(e), 0)`, folding from the left. */
  function Sum(es: seq<Expense>): real {
    if |es| == 0 then 0.0 else Sum(es[..|es| - 1]) + SpendOf(es[|es| - 1])
  }

  lemma {:induction false} SumConcat(a: seq<Expense>, b: seq<Expense>)
    ensures Sum(a + b) == Sum(a) + Sum(b)
    decreases |b|
  {
    if |b| > 0 {
      assert (a + b)[..|a + b| - 1] == a + b[..|b| - 1];
      SumConcat(a, b[..|b| - 1]);
    } else {
      assert a + b == a;
    }
  }

  /** With no negative amounts, the sum is not negative. */
  lemma {:induction false} SumNonNegative(es: seq<Expense>)
    requires forall i :: 0 <= i < |es| ==> SpendOf(es[i]) >= 0.0
    ensures Sum(es) >= 0.0
  {
    if |es| > 0 {
      SumNonNegative(es[..|es| - 1]);
    }
  }

  predicate OfTrip(e: Expense, tripId: string) {
    e.tripId == tripId
  }

  /** `expenses.filter(expense => expense.tripId === trip.id)`. */
  function TripExpenses(es: seq<Expense>, tripId: string): (r: seq<Expense>)
    ensures forall i :: 0 <= i < |r| ==> r[i].tripId == tripId
    ensures forall i :: 0 <= i < |es| && es[i].tripId == tripId ==> es[i] in r
  {
    Seqs.Filter(es, e => OfTrip(e, tripId))
  }

  /** The total a trip's card shows: the trip's own expenses only. */
  function TotalSpent(trip: Trip, es: seq<Expense>): real {
    Sum(TripExpenses(es, trip.id))
  }

  /** Appending an expense adds its amount to its own trip's total and nothing to any
      other trip's. */
  lemma TotalAfterAppend(trip: Trip, es: seq<Expense>, e: Expense)
    ensures TotalSpent(trip, es + [e]) == TotalSpent(trip, es) + (if e.tripId == trip.id then SpendOf(e) else 0.0)
  {
    var p := (x: Expense) => OfTrip(x, trip.id);
    Seqs.FilterConcat(es, [e], p);
    SumConcat(TripExpenses(es, trip.id), TripExpenses([e], trip.id));
    assert Sum([e]) == SpendOf(e);
    assert Sum([]) == 0.0;
  }

  /** Expenses of other trips never change a trip's total. */
  lemma TotalIgnoresOtherTrips(trip: Trip, es: seq<Expense>, others: seq<Expense>)
    requires forall i :: 0 <= i < |others| ==> others[i].tripId != trip.id
    ensures TotalSpent(trip, es + others) == TotalSpent(trip, es)
  {
    var p := (x: Expense) => OfTrip(x, trip.id);
    Seqs.FilterConcat(es, others, p);
    Seqs.FilterNone(others, p);
    assert TripExpenses(es, trip.id) + [] == TripExpenses(es, trip.id);
  }

  /** What `calculateTripStats` returns (Home.jsx carries `remaining`, HomePage.jsx does not). */
  datatype TripStats = TripStats(totalSpent: real, remaining: real, progress: real)

  /** `Math.min(x, 100)`. */
  function Cap(x: real): (r: real)
    ensures r <= 100.0 && r <= x
    ensures r == x || r == 100.0
  {
    if x < 100.0 then x else 100.0
  }

  /** `calculateTripStats`: the trip's total, the budget left (negative when over budget,
      never clamped) and the percentage used, capped at 100. */
  function CalculateTripStats(trip: Trip, es: seq<Expense>): (r: TripStats)
    requires trip.budget > 0.0
    ensures r.totalSpent == TotalSpent(trip, es)
    ensures r.remaining == trip.budget - r.totalSpent
    ensures r.remaining < 0.0 <==> r.totalSpent > trip.budget
    ensures r.progress <= 100.0
    ensures r.progress == 100.0 <==> r.totalSpent >= trip.budget
    ensures r.totalSpent < trip.budget ==> r.progress * trip.budget == r.totalSpent * 100.0
  {
    var total := TotalSpent(trip, es);
    TripStats(total, trip.budget - total, Cap(total / trip.budget * 100.0))
  }

  /** With non-negative amounts the capped progress lies in [0, 100]. */
  lemma ProgressInRange(trip: Trip, es: seq<Expense>)
    requires trip.budget > 0.0
    requires forall i :: 0 <= i < |es| ==> SpendOf(es[i]) >= 0.0
    ensures 0.0 <= CalculateTripStats(trip, es).progress <= 100.0
  {
    SumNonNegative(TripExpenses(es, trip.id));
  }

  /** MainFeature.jsx's `totalSpent`: every expense it is given, with no trip filter. */
  function MainFeatureTotal(es: seq<Expense>): real {
    Sum(es)
  }

  /** MainFeature.jsx's `budgetProgress`, NOT capped: over budget it exceeds 100. */
  function BudgetProgress(trip: Trip, es: seq<Expense>): (r: real)
    requires trip.budget > 0.0
    ensures r * trip.budget == MainFeatureTotal(es) * 100.0
    ensures r > 100.0 <==> MainFeatureTotal(es) > trip.budget
  {
    PercentAbove(MainFeatureTotal(es), trip.budget);
    MainFeatureTotal(es) / trip.budget * 100.0
  }

  lemma PercentAbove(x: real, b: real)
    requires b > 0.0
    ensures x / b * 100.0 > 100.0 <==> x > b
  {
  }

  /** The bar's width in MainFeature.jsx and ProgressCircle: the progress capped at 100. */
  function BarWidth(progress: real): (r: real)
    ensures r <= 100.0 && (progress <= 100.0 ==> r == progress)
  {
    Cap(progress)
  }

  /** Home.jsx hands MainFeature only the selected trip's expenses; on such a list the
      uncapped MainFeature figures and the capped card figures agree up to the cap. */
  lemma MainFeatureAgreesWithCard(trip: Trip, es: seq<Expense>)
    requires trip.budget > 0.0
    requires forall i :: 0 <= i < |es| ==> es[i].tripId == trip.id
    ensures MainFeatureTotal(es) == CalculateTripStats(trip, es).totalSpent
    ensures BarWidth(BudgetProgress(trip, es)) == CalculateTripStats(trip, es).progress
  {
    Seqs.FilterAll(es, e => OfTrip(e, trip.id));
  }

  /** TripOverview.jsx: `trip.budget - totalSpent`, shown as is. */
  function OverviewRemaining(trip: Trip, totalSpent: real): (r: real)
    ensures r + totalSpent == trip.budget
    ensures r < 0.0 <==> totalSpent > trip.budget
  {
    trip.budget - totalSpent
  }

  /** HomePage.jsx passes its own trip total to TripOverview, so the overview's remaining
      amount is the stats' `remaining`, negative once the trip is over budget. */
  lemma OverviewMatchesStats(trip: Trip, es: seq<Expense>)
    requires trip.budget > 0.0
    ensures OverviewRemaining(trip, CalculateTripStats(trip, es).totalSpent) == CalculateTripStats(trip, es).remaining
  {
  }

  /** A 1000 budget with 1500 spent: progress shows 100 while 500 is owed. */
  lemma OverBudgetExample(trip: Trip, es: seq<Expense>)
    requires trip.budget == 1000.0 && TotalSpent(trip, es) == 1500.0
    ensures CalculateTripStats(trip, es).progress == 100.0
    ensures CalculateTripStats(trip, es).remaining == -500.0
  {
  }

  // ----- colour tiers -----

  datatype Tier = Normal | Warning | Critical

  /** The three-tier threshold every budget colour uses: 90 and 75, both inclusive. */
  function TierOf(progress: real): (t: Tier)
    ensures t == Critical <==> progress >= 90.0
    ensures t == Warning <==> 75.0 <= progress < 90.0
    ensures t == Normal <==> progress < 75.0
  {
    if progress >= 90.0 then Critical else if progress >= 75.0 then Warning else Normal
  }

  function Rank(t: Tier): nat {
    match t
    case Normal => 0
    case Warning => 1
    case Critical => 2
  }

  /** More spending never lowers the tier. */
  lemma TierMonotone(p: real, q: real)
    requires p <= q
    ensures Rank(TierOf(p)) <= Rank(TierOf(q))
  {
  }

  function Colour(t: Tier): string {
    match t
    case Critical => "red"
    case Warning => "amber"
    case Normal => "green"
  }

  /** The bar class (`getBudgetColorClass` in HeroSection.jsx and TripOverview.jsx, and
      the inline bar classes of Home.jsx and MainFeature.jsx), as the source writes it. */
  function BarColorClass(progress: real): (r: string)
    ensures r == "bg-" + Colour(TierOf(progress)) + "-500"
  {
    if progress >= 90.0 then "bg-red-500"
    else if progress >= 75.0 then "bg-amber-500"
    else "bg-green-500"
  }

  /** The text class (`getBudgetColor` in Home.jsx, `getBudgetTextColorClass` in
      HeroSection.jsx), as the source writes it. */
  function TextColorClass(progress: real): (r: string)
    ensures r == "text-" + Colour(TierOf(progress)) + "-500"
  {
    if progress >= 90.0 then "text-red-500"
    else if progress >= 75.0 then "text-amber-500"
    else "text-green-500"
  }

  /** For every progress value the bar and the text pick the same colour. */
  lemma BarAndTextAgree(progress: real)
    ensures BarColorClass(progress)[3..] == TextColorClass(progress)[5..]
  {
  }

  /** Spend of 55 against a budget of 1000 is 5.5% and green. */
  lemma SmallSpendIsNormal(trip: Trip, es: seq<Expense>)
    requires trip.budget == 1000.0 && TotalSpent(trip, es) == 55.0
    ensures CalculateTripStats(trip, es).progress == 5.5
    ensures TierOf(CalculateTripStats(trip, es).progress) == Normal
  {
  }

  /** The status badge colour of Home.jsx and HeroSection.jsx: `active` green,
      `completed` blue, every other status gray. The badge's classes are the light and
      dark shades of this hue. */
  function StatusHue(status: string): (h: string)
    ensures h == "green" <==> status == "active"
    ensures h == "blue" <==> status == "completed"
    ensures h == "gray" <==> status != "active" && status != "completed"
  {
    if status == "active" then "green" else if status == "completed" then "blue" else "gray"
  }

  /** A trip fresh from the store is active, so its badge is green whatever status the
      input carried. */
  lemma NewTripIsGreen(s: seq<Trip>, data: Trip, newId: string)
    ensures StatusHue(TripService.Create(s, data, newId).1.status) == "green"
  {
  }
}

=== FILE: calendar.dfy ===
/** CalendarView.jsx: bucketing expenses by calendar day, the month grid, the week
    view, navigation by view mode and the category colours of the day cells. A date is
    an integer day number; day 0 is a Sunday, so the weekday is the number modulo 7. */
module Calendar {
  import opened Records
  import Seqs

  /** 0 is Sunday, 6 is Saturday. */
  function Weekday(d: int): (w: int)
    ensures 0 <= w < 7
  {
    d % 7
  }

  /** `startOfWeek`: the Sunday on or before `d`. */
  function StartOfWeek(d: int): (r: int)
    ensures r <= d < r + 7
    ensures Weekday(r) == 0
  {
    d - Weekday(d)
  }

  /** `endOfWeek`: the Saturday on or after `d`. */
  function EndOfWeek(d: int): (r: int)
    ensures r - 7 < d <= r
    ensures Weekday(r) == 6
  {
    StartOfWeek(d) + 6
  }

  predicate OnDay(e: Expense, d: int) {
    e.date == d
  }

  /** `getExpensesForDate`: the expenses dated on day `d`, in list order. */
  function ExpensesOn(es: seq<Expense>, d: int): (r: seq<Expense>)
    ensures forall i :: 0 <= i < |r| ==> r[i].date == d
    ensures forall i :: 0 <= i < |es| && es[i].date == d ==> es[i] in r
    ensures forall i :: 0 <= i < |es| && es[i].date != d ==> es[i] !in r
  {
    Seqs.Filter(es, e => OnDay(e, d))
  }

  /** Bucketing keeps list order: the day's expenses of a concatenation are those of
      each part, in turn. */
  lemma ExpensesOnKeepsOrder(a: seq<Expense>, b: seq<Expense>, d: int)
    ensures ExpensesOn(a + b, d) == ExpensesOn(a, d) + ExpensesOn(b, d)
  {
    Seqs.FilterConcat(a, b, e => OnDay(e, d));
  }

  /** One day cell of the month view. */
  datatype DayCell = DayCell(date: int, isCurrentMonth: bool, expenses: seq<Expense>)

  function CellAt(d: int, monthStart: int, monthEnd: int, es: seq<Expense>): DayCell {
    DayCell(d, monthStart <= d <= monthEnd, ExpensesOn(es, d))
  }

  /** The cell of every day of the month view, as one function. */
  function CellsOf(monthStart: int, monthEnd: int, es: seq<Expense>): (f: int -> DayCell)
    ensures forall d :: f(d) == CellAt(d, monthStart, monthEnd, es)
  {
    d => CellAt(d, monthStart, monthEnd, es)
  }

  /** The number of week rows from the week of the 1st to the week of the last day. */
  function RowCount(monthStart: int, monthEnd: int): (n: int)
    requires monthStart <= monthEnd
    ensures n >= 1
    ensures StartOfWeek(monthStart) + 7 * n == EndOfWeek(monthEnd) + 1
  {
    monthEnd / 7 - monthStart / 7 + 1
  }

  /** The grid of the month view: rows of seven cells, running one day at a time from
      the start of the week of the 1st. */
  ghost predicate IsMonthGrid(rows: seq<seq<DayCell>>, monthStart: int, monthEnd: int, es: seq<Expense>)
    requires monthStart <= monthEnd
  {
    |rows| == RowCount(monthStart, monthEnd)
    && (forall r :: 0 <= r < |rows| ==> |rows[r]| == 7)
    && forall r, c :: 0 <= r < |rows| && 0 <= c < 7 ==>
         rows[r][c] == CellsOf(monthStart, monthEnd, es)(StartOfWeek(monthStart) + 7 * r + c)
  }

  /** One week row of the month view: the cells of the seven days from `start` on. */
  method WeekRow(start: int, cell: int -> DayCell) returns (days: seq<DayCell>)
    ensures |days| == 7
    ensures forall c :: 0 <= c < 7 ==> days[c] == cell(start + c)
  {
    days := [];
    var i := 0;
    while i < 7
      invariant 0 <= i <= 7
      invariant |days| == i
      invariant forall c :: 0 <= c < i ==> days[c] == cell(start + c)
    {
      days := days + [cell(start + i)];
      i := i + 1;
    }
  }

  /** The week rows from the Sunday `gs` while the date has not passed `ge`, seven days
      at a time; `n` weeks span the range exactly. */
  method WeekRows(gs: int, ge: int, n: int, cell: int -> DayCell) returns (rows: seq<seq<DayCell>>)
    requires n >= 1 && gs + 7 * n == ge + 1
    ensures |rows| == n
    ensures forall r :: 0 <= r < |rows| ==> |rows[r]| == 7
    ensures forall r, c :: 0 <= r < |rows| && 0 <= c < 7 ==> rows[r][c] == cell(gs + 7 * r + c)
  {
    rows := [];
    var date := gs;
    while date <= ge
      invariant date == gs + 7 * |rows|
      invariant |rows| <= n
      invariant forall r :: 0 <= r < |rows| ==> |rows[r]| == 7
      invariant forall r, c :: 0 <= r < |rows| && 0 <= c < 7 ==> rows[r][c] == cell(gs + 7 * r + c)
      decreases ge - date
    {
      var days := WeekRow(date, cell);
      rows := rows + [days];
      date := date + 7;
    }
  }

  /** `renderMonthView`: from `startOfWeek(monthStart)` while the date has not passed
      `endOfWeek(monthEnd)`, one row of seven days at a time. */
  method MonthGrid(monthStart: int, monthEnd: int, es: seq<Expense>) returns (rows: seq<seq<DayCell>>)
    requires monthStart <= monthEnd
    ensures IsMonthGrid(rows, monthStart, monthEnd, es)
    ensures rows[0][0].date == StartOfWeek(monthStart)
    ensures rows[|rows| - 1][6].date == EndOfWeek(monthEnd)
  {
    var n := RowCount(monthStart, monthEnd);
    rows := WeekRows(StartOfWeek(monthStart), EndOfWeek(monthEnd), n, CellsOf(monthStart, monthEnd, es));
  }

  /** Where day `d` sits in the grid. */
  function Position(monthStart: int, d: int): (int, int) {
    ((d - StartOfWeek(monthStart)) / 7, (d - StartOfWeek(monthStart)) % 7)
  }

  /** Every day from the grid's first Sunday to its last Saturday, and so every day of
      the month, has exactly one cell, and that cell carries its date. A cell is marked
      as in the current month exactly when its day lies between the month's first and
      last day. */
  lemma DayHasOneCell(rows: seq<seq<DayCell>>, monthStart: int, monthEnd: int, es: seq<Expense>, d: int)
    requires monthStart <= monthEnd && IsMonthGrid(rows, monthStart, monthEnd, es)
    requires StartOfWeek(monthStart) <= d <= EndOfWeek(monthEnd)
    ensures var (r, c) := Position(monthStart, d);
      0 <= r < |rows| && 0 <= c < 7 && rows[r][c].date == d
      && (rows[r][c].isCurrentMonth <==> monthStart <= d <= monthEnd)
    ensures forall r, c :: 0 <= r < |rows| && 0 <= c < 7 && rows[r][c].date == d ==> (r, c) == Position(monthStart, d)
  {
  }

  lemma CellIndexUnique(r: int, c: int, r': int, c': int)
    requires 0 <= c < 7 && 0 <= c' < 7 && 7 * r + c == 7 * r' + c'
    ensures r == r' && c == c'
  {
  }

  /** An expense whose day lies within the grid is listed in exactly one day cell: the
      cell of its own day. */
  lemma ExpenseInOneCell(rows: seq<seq<DayCell>>, monthStart: int, monthEnd: int, es: seq<Expense>, i: int)
    requires monthStart <= monthEnd && IsMonthGrid(rows, monthStart, monthEnd, es)
    requires 0 <= i < |es| && StartOfWeek(monthStart) <= es[i].date <= EndOfWeek(monthEnd)
    ensures forall r, c :: 0 <= r < |rows| && 0 <= c < 7 ==>
      (es[i] in rows[r][c].expenses <==> (r, c) == Position(monthStart, es[i].date))
  {
    DayHasOneCell(rows, monthStart, monthEnd, es, es[i].date);
    forall r, c | 0 <= r < |rows| && 0 <= c < 7
      ensures es[i] in rows[r][c].expenses <==> (r, c) == Position(monthStart, es[i].date)
    {
      CellHoldsItsDay(rows, monthStart, monthEnd, es, r, c, i);
    }
  }

  /** A grid cell lists an expense exactly when the expense falls on the cell's date. */
  lemma CellHoldsItsDay(rows: seq<seq<DayCell>>, monthStart: int, monthEnd: int, es: seq<Expense>, r: int, c: int, i: int)
    requires monthStart <= monthEnd && IsMonthGrid(rows, monthStart, monthEnd, es)
    requires 0 <= r < |rows| && 0 <= c < 7 && 0 <= i < |es|
    ensures es[i] in rows[r][c].expenses <==> es[i].date == rows[r][c].date
  {
  }

  /** `renderWeekView`: the seven days from the Sunday of `d`'s week, which include `d`. */
  function WeekDays(d: int): (r: seq<int>)
    ensures |r| == 7
    ensures forall i :: 0 <= i < 7 ==> Weekday(r[i]) == i
    ensures forall i :: 0 < i < 7 ==> r[i] == r[i - 1] + 1
    ensures d in r
  {
    var s := StartOfWeek(d);
    var r := seq(7, i requires 0 <= i < 7 => s + i);
    assert r[Weekday(d)] == d;
    r
  }

  /** The calendar's three view modes. */
  datatype ViewMode = Month | Week | Day

  /** `handleNext`; the month step is date-fns's `addMonths`, a parameter here. */
  function Next(mode: ViewMode, d: int, addMonths: (int, int) -> int): (r: int)
    ensures mode == Month ==> r == addMonths(d, 1)
    ensures mode == Week ==> r == d + 7 && Weekday(r) == Weekday(d)
    ensures mode == Day ==> r == d + 1
  {
    match mode
    case Month => addMonths(d, 1)
    case Week => d + 7
    case Day => d + 1
  }

  /** `handlePrevious`: `subMonths(d, 1)` is `addMonths(d, -1)`. */
  function Previous(mode: ViewMode, d: int, addMonths: (int, int) -> int): (r: int)
    ensures mode == Month ==> r == addMonths(d, -1)
    ensures mode == Week ==> r == d - 7 && Weekday(r) == Weekday(d)
    ensures mode == Day ==> r == d - 1
  {
    match mode
    case Month => addMonths(d, -1)
    case Week => d - 7
    case Day => d - 1
  }

  /** In week and day mode, next and previous undo each other. */
  lemma StepsUndo(mode: ViewMode, d: int, addMonths: (int, int) -> int)
    requires mode != Month
    ensures Previous(mode, Next(mode, d, addMonths), addMonths) == d
    ensures Next(mode, Previous(mode, d, addMonths), addMonths) == d
  {
  }

  /** In week mode, next shows the following week: each day moves on by seven. */
  lemma NextWeekIsFollowingWeek(d: int, addMonths: (int, int) -> int)
    ensures forall i :: 0 <= i < 7 ==> WeekDays(Next(Week, d, addMonths))[i] == WeekDays(d)[i] + 7
  {
  }

  /** `getCategoryColor`: a fixed colour for the four page categories, gray for any
      other id. */
  function CategoryColor(categoryId: string): (r: string)
    ensures categoryId == "transport" ==> r == "bg-blue-500"
    ensures categoryId == "accommodation" ==> r == "bg-green-500"
    ensures categoryId == "meals" ==> r == "bg-orange-500"
    ensures categoryId == "other" ==> r == "bg-purple-500"
    ensures r == "bg-gray-500" <==> categoryId !in {"transport", "accommodation", "meals", "other"}
  {
    if categoryId == "transport" then "bg-blue-500"
    else if categoryId == "accommodation" then "bg-green-500"
    else if categoryId == "meals" then "bg-orange-500"
    else if categoryId == "other" then "bg-purple-500"
    else "bg-gray-500"
  }
}

=== FILE: conversion.dfy ===
/** `convertCurrency` (HomePage.jsx and MainFeature.jsx): a same-currency amount is
    returned as is; otherwise the first rate record for exactly this direction is applied,
    and with none the amount comes back unconverted. */
module Conversion {
  import opened Wrappers
  import opened Records
  import Seqs

  /** The record is a rate from `from` to `to`, in that direction. */
  predicate Matches(x: ExchangeRate, from: string, to: string) {
    x.fromCurrency == from && x.toCurrency == to
  }

  predicate HasRate(rates: seq<ExchangeRate>, from: string, to: string) {
    exists i :: 0 <= i < |rates| && Matches(rates[i], from, to)
  }

  /** `k` is the record `exchangeRates.find(...)` picks for this direction. */
  ghost predicate IsFirstRate(rates: seq<ExchangeRate>, from: string, to: string, k: int) {
    0 <= k < |rates| && Matches(rates[k], from, to)
    && forall j :: 0 <= j < k ==> !Matches(rates[j], from, to)
  }

  function FindRate(rates: seq<ExchangeRate>, from: string, to: string): (r: Option<ExchangeRate>)
    ensures r.None? <==> !HasRate(rates, from, to)
    ensures r.Some? ==> exists k :: IsFirstRate(rates, from, to, k) && r.value == rates[k]
  {
    match Seqs.FirstIndex(rates, x => Matches(x, from, to))
    case None => None
    case Some(k) => Some(rates[k])
  }

  /** The rate of the first record for this direction. */
  function RateOf(rates: seq<ExchangeRate>, from: string, to: string): (r: real)
    requires HasRate(rates, from, to)
    ensures exists k :: IsFirstRate(rates, from, to, k) && r == rates[k].rate
  {
    FindRate(rates, from, to).value.rate
  }

  function Convert(amount: real, from: string, to: string, rates: seq<ExchangeRate>): (r: real)
    ensures from == to ==> r == amount
    ensures from != to && !HasRate(rates, from, to) ==> r == amount
    ensures from != to && HasRate(rates, from, to) ==> r == Scale(amount, RateOf(rates, from, to))
  {
    if from == to then amount
    else if FindRate(rates, from, to).Some? then Scale(amount, RateOf(rates, from, to))
    else amount
  }

  /** `amount * rate`, kept behind a name so that only the proofs about the product
      itself see the multiplication. */
  function Scale(amount: real, rate: real): real {
    amount * rate
  }

  /** Only a record for the requested direction is ever used: rates for the opposite
      direction, or between other currencies, leave the amount unconverted. */
  lemma DirectionMatters(amount: real, a: string, b: string, rates: seq<ExchangeRate>)
    requires forall i :: 0 <= i < |rates| ==> rates[i].fromCurrency != a || rates[i].toCurrency != b
    ensures Convert(amount, a, b, rates) == amount
  {
  }

  /** Records after the first match never matter: the first record found wins. */
  lemma FirstMatchWins(amount: real, from: string, to: string, rates: seq<ExchangeRate>, more: seq<ExchangeRate>)
    requires HasRate(rates, from, to)
    ensures Convert(amount, from, to, rates + more) == Convert(amount, from, to, rates)
  {
    FindRateAppend(rates, more, from, to);
  }

  lemma FindRateAppend(rates: seq<ExchangeRate>, more: seq<ExchangeRate>, from: string, to: string)
    requires HasRate(rates, from, to)
    ensures FindRate(rates + more, from, to) == FindRate(rates, from, to)
  {
    var p := (x: ExchangeRate) => Matches(x, from, to);
    Seqs.FirstIndexAppend(rates, more, p);
    var k := Seqs.FirstIndex(rates, p).value;
    assert (rates + more)[k] == rates[k];
  }

  /** Converting a sum is summing the conversions: the same rate applies to both parts. */
  lemma ConvertAdditive(a: real, b: real, from: string, to: string, rates: seq<ExchangeRate>)
    ensures Convert(a + b, from, to, rates) == Convert(a, from, to, rates) + Convert(b, from, to, rates)
  {
    if from != to && HasRate(rates, from, to) {
      ScaleAdds(a, b, RateOf(rates, from, to));
    }
  }

  lemma ScaleAdds(a: real, b: real, x: real)
    ensures Scale(a + b, x) == Scale(a, x) + Scale(b, x)
  {
  }

  /** A USD→EUR rate of 0.9 turns 100 into 90. */
  lemma ConvertExample()
    ensures Convert(100.0, "USD", "EUR", [ExchangeRate("1", "USD", "EUR", 0.9, 0)]) == 90.0
  {
  }
}

=== FILE: exchange_rate_service.dfy ===
/** The exchange-rate store (src/services/api/exchangeRateService.js). The id and the
    timestamp the source takes from the clock are the parameters `newId` and `now`. */
module ExchangeRateService {
  import opened Wrappers
  import opened Records
  import Seqs
  import Store

  function RateId(x: ExchangeRate): string { x.id }

  /** `getById`: the first rate with that id, or `null`. */
  function GetById(s: seq<ExchangeRate>, id: string): (r: Option<ExchangeRate>)
    ensures r.None? <==> forall i :: 0 <= i < |s| ==> s[i].id != id
    ensures r.Some? ==> exists k :: Store.IsFirstWithId(s, RateId, id, k) && r.value == s[k]
  {
    Store.GetById(s, RateId, id)
  }

  /** `create`: appends the data with the store's id and timestamp, which override any
      the data carried. */
  function Create(s: seq<ExchangeRate>, data: ExchangeRate, newId: string, now: int)
    : (r: (seq<ExchangeRate>, ExchangeRate))
    ensures r.0 == s + [r.1]
    ensures r.1.id == newId && r.1.timestamp == now
    ensures r.1.fromCurrency == data.fromCurrency && r.1.toCurrency == data.toCurrency && r.1.rate == data.rate
  {
    var x := data.(id := newId, timestamp := now);
    (s + [x], x)
  }

  /** `update`: "Exchange rate not found" on an unknown id; otherwise only the first rate
      with that id changes, to the merge of its fields with `patch`. */
  function Update(s: seq<ExchangeRate>, id: string, patch: RatePatch)
    : (r: Result<(seq<ExchangeRate>, ExchangeRate), Store.StoreError>)
    ensures r.Failure? <==> forall i :: 0 <= i < |s| ==> s[i].id != id
    ensures r.Failure? ==> r.error == Store.NotFound("Exchange rate not found")
    ensures r.Success? ==> exists k :: (Store.IsFirstWithId(s, RateId, id, k)
      && r.value.1 == MergeRate(s[k], patch)
      && |r.value.0| == |s| && r.value.0[k] == r.value.1
      && forall j :: 0 <= j < |s| && j != k ==> r.value.0[j] == s[j])
  {
    Store.Update(s, RateId, id, x => MergeRate(x, patch), Store.NotFound("Exchange rate not found"))
  }

  /** `delete`: "Exchange rate not found" on an unknown id; otherwise removes and returns
      the first rate with that id, the others keeping their order. */
  function Delete(s: seq<ExchangeRate>, id: string)
    : (r: Result<(seq<ExchangeRate>, ExchangeRate), Store.StoreError>)
    ensures r.Failure? <==> forall i :: 0 <= i < |s| ==> s[i].id != id
    ensures r.Failure? ==> r.error == Store.NotFound("Exchange rate not found")
    ensures r.Success? ==> exists k :: (Store.IsFirstWithId(s, RateId, id, k)
      && r.value.1 == s[k] && r.value.0 == Seqs.RemoveAt(s, k))
  {
    Store.Delete(s, RateId, id, Store.NotFound("Exchange rate not found"))
  }

  /** Read-after-write for rates with unique ids: a created rate is found under its fresh
      id, an update that does not rename is seen by `getById`, and a deleted rate is gone
      while every other id finds what it found before. */
  lemma RateReadAfterWrite(s: seq<ExchangeRate>, data: ExchangeRate, newId: string, now: int,
                           id: string, patch: RatePatch, other: string)
    requires Store.UniqueIds(s, RateId)
    requires forall i :: 0 <= i < |s| ==> s[i].id != newId
    requires patch.id.None? && other != id
    ensures var c := Create(s, data, newId, now); GetById(c.0, newId) == Some(c.1) && Store.UniqueIds(c.0, RateId)
    ensures Update(s, id, patch).Success? ==>
      var u := Update(s, id, patch).value;
      GetById(u.0, id) == Some(u.1) && GetById(u.0, other) == GetById(s, other)
      && Store.UniqueIds(u.0, RateId)
    ensures Delete(s, id).Success? ==>
      var d := Delete(s, id).value.0;
      GetById(d, id).None? && GetById(d, other) == GetById(s, other) && Store.UniqueIds(d, RateId)
  {
    Store.CreateThenGet(s, RateId, Create(s, data, newId, now).1);
    if Update(s, id, patch).Success? {
      Store.UpdateThenGet(s, RateId, id, x => MergeRate(x, patch), Store.NotFound("Exchange rate not found"), other);
    }
    if Delete(s, id).Success? {
      Store.DeleteThenGet(s, RateId, id, Store.NotFound("Exchange rate not found"), other);
    }
  }
}

=== FILE: expense_page.dfy ===
/** The expense workflow shared by HomePage.jsx and MainFeature.jsx (with Home.jsx's
    list callbacks): the form, the record `handleSubmitExpense` builds from it, the store
    call it makes and the update of the page's own expense list that follows. */
module ExpensePage {
  import opened Wrappers
  import opened Text
  import opened Records
  import Seqs
  import Store
  import ExpenseService
  import Conversion
  import Budget
  import Projections

  /** The receipt image used when the form's receipt URL is empty. */
  const PlaceholderReceipt: string := "https://images.unsplash.com/photo-1554224155-6726b3ff858f?w=400&h=300&fit=crop"

  /** The form's fields. `amount` is `None` while the input is empty; `paymentMode` is
      `None` in MainFeature.jsx's form, which has no such field. */
  datatype Form = Form(
    amount: Option<real>,
    currency: string,
    category: string,
    paymentMode: Option<string>,
    merchant: string,
    date: int,
    notes: string,
    receiptUrl: string)

  /** The amount input is `required`, so only a form with an amount is ever submitted. */
  predicate Submittable(f: Form) {
    f.amount.Some?
  }

  /** MainFeature.jsx's form after a successful submit: the trip's currency, category
      `meals`, today's date and every other field empty. */
  function ResetForm(trip: Trip, today: int): (f: Form)
    ensures !Submittable(f)
    ensures f.currency == trip.currency && f.category == "meals" && f.date == today
    ensures f.paymentMode.None? && f.merchant == "" && f.notes == "" && f.receiptUrl == ""
  {
    Form(None, trip.currency, "meals", None, "", today, "", "")
  }

  /** ExpenseForm.jsx's blank form: the trip's currency or `USD` without one, category
      `meals`, paid in cash, dated today. */
  function BlankForm(tripCurrency: string, today: int): (f: Form)
    ensures !Submittable(f)
    ensures tripCurrency != "" ==> f.currency == tripCurrency
    ensures tripCurrency == "" ==> f.currency == "USD"
    ensures f.category == "meals" && f.paymentMode == Some("cash") && f.date == today
  {
    Form(None, OrElse(tripCurrency, "USD"), "meals", Some("cash"), "", today, "", "")
  }

  /** The form filled from an expense being edited; `withPaymentMode` is false for
      MainFeature.jsx's form. A missing payment mode is shown as cash. */
  function EditForm(e: Expense, withPaymentMode: bool): (f: Form)
    ensures Submittable(f) && f.amount.value == e.amount
    ensures withPaymentMode && e.paymentMode != "" ==> f.paymentMode == Some(e.paymentMode)
    ensures withPaymentMode && e.paymentMode == "" ==> f.paymentMode == Some("cash")
    ensures !withPaymentMode ==> f.paymentMode.None?
  {
    Form(Some(e.amount), e.currency, e.category,
         if withPaymentMode then Some(OrElse(e.paymentMode, "cash")) else None,
         e.merchant, e.date, e.notes, e.receiptUrl)
  }

  /** `expenseData`: the form's own fields plus the selected trip's id, the parsed amount,
      the amount converted into the trip's currency, and the placeholder receipt when none
      was given. It never carries an id, and a form without a payment-mode field leaves
      that key absent. */
  function ExpenseData(f: Form, trip: Trip, rates: seq<ExchangeRate>): (r: ExpensePatch)
    requires Submittable(f)
    ensures r.id.None?
    ensures r.tripId == Some(trip.id) && r.amount == f.amount
    ensures r.convertedAmount == Some(Some(Conversion.Convert(f.amount.value, f.currency, trip.currency, rates)))
    ensures f.receiptUrl != "" ==> r.receiptUrl == Some(f.receiptUrl)
    ensures f.receiptUrl == "" ==> r.receiptUrl == Some(PlaceholderReceipt)
    ensures r.paymentMode == f.paymentMode
    ensures r.currency == Some(f.currency) && r.category == Some(f.category)
    ensures r.merchant == Some(f.merchant) && r.date == Some(f.date) && r.notes == Some(f.notes)
  {
    ExpensePatch(None, Some(trip.id), f.amount, Some(f.currency),
                 Some(Some(Conversion.Convert(f.amount.value, f.currency, trip.currency, rates))),
                 Some(f.category), f.paymentMode, Some(f.merchant), Some(f.date), Some(f.notes),
                 Some(OrElse(f.receiptUrl, PlaceholderReceipt)))
  }

  /** A record with every key absent: `create` receives `expenseData` laid over it. */
  const NoFields: Expense := Expense("", "", 0.0, "", None, "", "", "", 0, "", "")

  /** The store and the list the page shows. */
  datatype PageState = PageState(store: seq<Expense>, shown: seq<Expense>)

  /** `handleSubmitExpense`: with no expense being edited the data is created and the
      created record appended to the list; otherwise the edited expense is updated and
      replaced by id. A failed update is caught and changes nothing. */
  function Submit(st: PageState, f: Form, trip: Trip, rates: seq<ExchangeRate>, editingId: string, newId: string): (r: PageState)
    requires Submittable(f)
    ensures editingId == "" ==> (
      |r.store| == |st.store| + 1 && r.store[..|st.store|] == st.store
      && r.shown == st.shown + [r.store[|st.store|]])
    ensures editingId == "" ==> (
      var c := r.store[|st.store|];
      c.id == newId && c.tripId == trip.id && c.amount == f.amount.value
      && c.convertedAmount == Some(Conversion.Convert(f.amount.value, f.currency, trip.currency, rates))
      && (f.paymentMode.None? || f.paymentMode.value == "" ==> c.paymentMode == "cash")
      && (f.receiptUrl == "" ==> c.receiptUrl == PlaceholderReceipt))
    ensures editingId != "" && Store.Absent(st.store, ExpenseService.ExpenseId, editingId) ==> r == st
    ensures editingId != "" ==> |r.store| == |st.store| && |r.shown| == |st.shown|
  {
    var data := ExpenseData(f, trip, rates);
    if editingId == "" then
      var c := ExpenseService.Create(st.store, MergeExpense(NoFields, data), newId);
      PageState(c.0, st.shown + [c.1])
    else
      match ExpenseService.Update(st.store, editingId, data)
      case Failure(_) => st
      case Success(u) => PageState(u.0, Projections.ReplaceById(st.shown, u.1))
  }

  /** `handleDeleteExpense`: a successful delete removes the first expense with the id
      from the store and every record with the id from the list, keeping the others; a
      failed one is caught and changes nothing. */
  function DeleteExpense(st: PageState, id: string): (r: PageState)
    ensures Store.Absent(st.store, ExpenseService.ExpenseId, id) ==> r == st
    ensures !Store.Absent(st.store, ExpenseService.ExpenseId, id) ==>
      |r.store| == |st.store| - 1 && forall i :: 0 <= i < |r.shown| ==> r.shown[i].id != id
    ensures !Store.Absent(st.store, ExpenseService.ExpenseId, id) ==>
      exists k :: Store.IsFirstWithId(st.store, ExpenseService.ExpenseId, id, k)
                  && r.store == Seqs.RemoveAt(st.store, k)
    ensures !Store.Absent(st.store, ExpenseService.ExpenseId, id) ==>
      forall e :: e in r.shown <==> e in st.shown && e.id != id
  {
    match ExpenseService.Delete(st.store, id)
    case Failure(_) => st
    case Success(d) => PageState(d.0, Projections.RemoveById(st.shown, id))
  }

  /** The page invariant: ids in the store are unique and the page shows exactly the
      selected trip's expenses, in store order (what `loadExpenses` sets up). */
  predicate InSync(st: PageState, trip: Trip) {
    Store.UniqueIds(st.store, ExpenseService.ExpenseId)
    && st.shown == Budget.TripExpenses(st.store, trip.id)
  }

  /** Loading a trip's expenses establishes the invariant. */
  lemma LoadIsInSync(store: seq<Expense>, trip: Trip)
    requires Store.UniqueIds(store, ExpenseService.ExpenseId)
    ensures InSync(PageState(store, Budget.TripExpenses(store, trip.id)), trip)
  {
  }

  /** Submitting keeps the page list equal to the trip's expenses in the store, given a
      fresh id for a new expense and an edited expense of the selected trip. */
  lemma SubmitKeepsSync(st: PageState, f: Form, trip: Trip, rates: seq<ExchangeRate>, editingId: string, newId: string)
    requires Submittable(f) && InSync(st, trip)
    requires editingId == "" ==> Store.Absent(st.store, ExpenseService.ExpenseId, newId)
    requires editingId != "" ==> forall i :: 0 <= i < |st.store| && st.store[i].id == editingId ==> st.store[i].tripId == trip.id
    ensures InSync(Submit(st, f, trip, rates, editingId, newId), trip)
  {
    var p := (x: Expense) => Budget.OfTrip(x, trip.id);
    var data := ExpenseData(f, trip, rates);
    if editingId == "" {
      var c := ExpenseService.Create(st.store, MergeExpense(NoFields, data), newId);
      ExpenseService.CreateFresh(st.store, MergeExpense(NoFields, data), newId);
      Seqs.FilterConcat(st.store, [c.1], p);
      Seqs.FilterAll([c.1], p);
    } else if ExpenseService.Update(st.store, editingId, data).Success? {
      UpdateKeepsSync(st, trip, editingId, data);
    }
  }

  lemma UpdateKeepsSync(st: PageState, trip: Trip, id: string, data: ExpensePatch)
    requires InSync(st, trip) && data.id.None? && data.tripId == Some(trip.id)
    requires forall i :: 0 <= i < |st.store| && st.store[i].id == id ==> st.store[i].tripId == trip.id
    requires ExpenseService.Update(st.store, id, data).Success?
    ensures var u := ExpenseService.Update(st.store, id, data).value;
      InSync(PageState(u.0, Projections.ReplaceById(st.shown, u.1)), trip)
  {
    var s := st.store;
    var u := ExpenseService.Update(s, id, data).value;
    Projections.PageMirrorsStore(s, NoFields, "", id, data);
    UpdatedStaysOnTrip(s, trip.id, id, data);
    var rep := Projections.Replacing(u.1);
    var p := (x: Expense) => Budget.OfTrip(x, trip.id);
    forall j | 0 <= j < |s|
      ensures p(rep(s[j])) == p(s[j])
    {
    }
    Seqs.FilterMap(s, rep, p);
    ExpenseService.ExpenseReadAfterWrite(s, id, data, id + "'");
  }

  /** The updated expense keeps its id and, given the trip's id in the patch, the trip. */
  lemma UpdatedStaysOnTrip(s: seq<Expense>, tripId: string, id: string, data: ExpensePatch)
    requires data.id.None? && data.tripId == Some(tripId)
    requires ExpenseService.Update(s, id, data).Success?
    ensures var e := ExpenseService.Update(s, id, data).value.1; e.id == id && e.tripId == tripId
  {
  }

  /** Deleting keeps the page list equal to the trip's expenses in the store. */
  lemma DeleteKeepsSync(st: PageState, trip: Trip, id: string)
    requires InSync(st, trip)
    ensures InSync(DeleteExpense(st, id), trip)
  {
    var s := st.store;
    if ExpenseService.Delete(s, id).Success? {
      var d := ExpenseService.Delete(s, id).value;
      var k :| Store.IsFirstWithId(s, ExpenseService.ExpenseId, id, k) && d.1 == s[k] && d.0 == Seqs.RemoveAt(s, k);
      Projections.RemoveUnique(s, id, k);
      Seqs.FilterCommute(s, (x: Expense) => Budget.OfTrip(x, trip.id), (x: Expense) => Projections.NotId(x, id));
      Store.RemoveKeepsUnique(s, ExpenseService.ExpenseId, k);
    }
  }

  /** Saving an edited form without touching it gives back the same expense, except
      that the converted amount is recomputed with the current rates and, with the
      payment-mode field, a missing mode becomes cash. */
  lemma SaveUntouchedForm(e: Expense, trip: Trip, rates: seq<ExchangeRate>)
    requires e.tripId == trip.id && e.receiptUrl != ""
    ensures MergeExpense(e, ExpenseData(EditForm(e, true), trip, rates))
      == e.(paymentMode := OrElse(e.paymentMode, "cash"),
            convertedAmount := Some(Conversion.Convert(e.amount, e.currency, trip.currency, rates)))
    ensures MergeExpense(e, ExpenseData(EditForm(e, false), trip, rates))
      == e.(convertedAmount := Some(Conversion.Convert(e.amount, e.currency, trip.currency, rates)))
  {
  }

  /** 50 EUR entered on a 1000 USD trip with a EUR→USD rate of 1.1 is stored with a
      converted amount of 55, which is 5.5% of the budget and in the normal tier. */
  lemma ForeignExpenseExample()
    ensures var trip := Trip("t1", "Lisbon", "Lisbon", 0, 6, 1000.0, "USD", "active", "");
      var rates := [ExchangeRate("r1", "EUR", "USD", 1.1, 0)];
      var f := Form(Some(50.0), "EUR", "meals", Some("cash"), "Cafe", 2, "", "");
      var st := Submit(PageState([], []), f, trip, rates, "", "e1");
      st.shown[0].convertedAmount == Some(55.0)
      && Budget.CalculateTripStats(trip, st.store).progress == 5.5
      && Budget.TierOf(5.5) == Budget.Normal
  {
  }
}

=== FILE: expense_service.dfy ===
/** The expense store with its category and payment-mode registries
    (src/services/api/expenseService.js). The id `Date.now()` would produce is the
    parameter `newId`. */
module ExpenseService {
  import opened Wrappers
  import opened Text
  import opened Records
  import Seqs
  import Store
  import Registry

  function ExpenseId(e: Expense): string { e.id }
  function CategoryId(c: Category): string { c.id }
  function CategoryName(c: Category): string { c.name }
  function PaymentModeId(m: PaymentMode): string { m.id }
  function PaymentModeName(m: PaymentMode): string { m.name }

  const DefaultCategoryIds: set<string> :=
    {"transport", "accommodation", "meals", "entertainment", "shopping", "other"}

  const DefaultPaymentModeIds: set<string> :=
    {"cash", "credit-card", "debit-card", "bank-transfer", "digital-wallet", "other"}

  /** The registry's starting categories. */
  const DefaultCategories: seq<Category> := [
    Category("transport", "Transport", "Flights, trains, buses, taxis, car rentals", "", ""),
    Category("accommodation", "Accommodation", "Hotels, hostels, vacation rentals", "", ""),
    Category("meals", "Meals", "Restaurants, cafes, food delivery, groceries", "", ""),
    Category("entertainment", "Entertainment", "Tours, activities, attractions, shows", "", ""),
    Category("shopping", "Shopping", "Souvenirs, clothes, personal items", "", ""),
    Category("other", "Other", "Miscellaneous expenses", "", "")
  ]

  /** The registry's starting payment modes. */
  const DefaultPaymentModes: seq<PaymentMode> := [
    PaymentMode("cash", "Cash", "Physical cash payments", "Banknote"),
    PaymentMode("credit-card", "Credit Card", "Credit card transactions", "CreditCard"),
    PaymentMode("debit-card", "Debit Card", "Debit card transactions", "CreditCard"),
    PaymentMode("bank-transfer", "Bank Transfer", "Direct bank transfers", "ArrowLeftRight"),
    PaymentMode("digital-wallet", "Digital Wallet", "PayPal, Apple Pay, Google Pay, etc.", "Smartphone"),
    PaymentMode("other", "Other", "Other payment methods", "MoreHorizontal")
  ]

  // ----- expenses -----

  /** `getById`: the first expense with that id, or `null`. */
  function GetById(s: seq<Expense>, id: string): (r: Option<Expense>)
    ensures r.None? <==> forall i :: 0 <= i < |s| ==> s[i].id != id
    ensures r.Some? ==> r.value.id == id && r.value in s
    ensures r.Some? ==> exists k :: Store.IsFirstWithId(s, ExpenseId, id, k) && r.value == s[k]
  {
    Store.GetById(s, ExpenseId, id)
  }

  /** `create`: appends the given data under `newId`, with payment mode `cash` when
      the data has none; every other field is taken as given. */
  function Create(s: seq<Expense>, data: Expense, newId: string): (r: (seq<Expense>, Expense))
    ensures r.0 == s + [r.1]
    ensures r.1.id == newId
    ensures data.paymentMode != "" ==> r.1.paymentMode == data.paymentMode
    ensures data.paymentMode == "" ==> r.1.paymentMode == "cash"
    ensures r.1.(id := data.id, paymentMode := data.paymentMode) == data
  {
    var e := data.(id := newId, paymentMode := OrElse(data.paymentMode, "cash"));
    (s + [e], e)
  }

  /** `update`: "Expense not found" on an unknown id; otherwise only the first expense
      with that id changes, to the merge of its old fields with `patch`. */
  function Update(s: seq<Expense>, id: string, patch: ExpensePatch): (r: Result<(seq<Expense>, Expense), Store.StoreError>)
    ensures r.Failure? <==> forall i :: 0 <= i < |s| ==> s[i].id != id
    ensures r.Failure? ==> r.error == Store.NotFound("Expense not found")
    ensures r.Success? ==> exists k :: (Store.IsFirstWithId(s, ExpenseId, id, k)
      && r.value.1 == MergeExpense(s[k], patch)
      && |r.value.0| == |s| && r.value.0[k] == r.value.1
      && forall j :: 0 <= j < |s| && j != k ==> r.value.0[j] == s[j])
  {
    Store.Update(s, ExpenseId, id, e => MergeExpense(e, patch), Store.NotFound("Expense not found"))
  }

  /** `delete`: "Expense not found" on an unknown id; otherwise removes and returns the
      first expense with that id. */
  function Delete(s: seq<Expense>, id: string): (r: Result<(seq<Expense>, Expense), Store.StoreError>)
    ensures r.Failure? <==> forall i :: 0 <= i < |s| ==> s[i].id != id
    ensures r.Failure? ==> r.error == Store.NotFound("Expense not found")
    ensures r.Success? ==> exists k :: (Store.IsFirstWithId(s, ExpenseId, id, k)
      && r.value.1 == s[k] && r.value.0 == Seqs.RemoveAt(s, k))
  {
    Store.Delete(s, ExpenseId, id, Store.NotFound("Expense not found"))
  }

  /** With a fresh id, the created expense is the one `getById` finds, and ids stay unique. */
  lemma CreateFresh(s: seq<Expense>, data: Expense, newId: string)
    requires forall i :: 0 <= i < |s| ==> s[i].id != newId
    ensures var r := Create(s, data, newId);
      GetById(r.0, newId) == Some(r.1)
      && (Store.UniqueIds(s, ExpenseId) ==> Store.UniqueIds(r.0, ExpenseId))
  {
    Store.CreateThenGet(s, ExpenseId, Create(s, data, newId).1);
  }

  /** Read-after-write for expenses with unique ids: an update that does not rename is
      seen by `getById`, a deleted expense is gone, every other id finds what it found
      before, and the ids stay unique. */
  lemma ExpenseReadAfterWrite(s: seq<Expense>, id: string, patch: ExpensePatch, other: string)
    requires Store.UniqueIds(s, ExpenseId)
    requires patch.id.None? && other != id
    ensures Update(s, id, patch).Success? ==>
      var u := Update(s, id, patch).value;
      GetById(u.0, id) == Some(u.1) && GetById(u.0, other) == GetById(s, other)
      && Store.UniqueIds(u.0, ExpenseId)
    ensures Delete(s, id).Success? ==>
      var d := Delete(s, id).value.0;
      GetById(d, id).None? && GetById(d, other) == GetById(s, other) && Store.UniqueIds(d, ExpenseId)
  {
    if Update(s, id, patch).Success? {
      Store.UpdateThenGet(s, ExpenseId, id, e => MergeExpense(e, patch), Store.NotFound("Expense not found"), other);
    }
    if Delete(s, id).Success? {
      Store.DeleteThenGet(s, ExpenseId, id, Store.NotFound("Expense not found"), other);
    }
  }

  // ----- categories -----

  /** `createCategory`: refuses a name equal ignoring case to an existing one; otherwise
      appends a category whose id is the slug of the name. */
  function CreateCategory(cats: seq<Category>, name: string, description: string)
    : (r: Result<(seq<Category>, Category), Store.StoreError>)
    ensures r.Failure? <==> exists i :: 0 <= i < |cats| && EqualsIgnoringCase(cats[i].name, name)
    ensures r.Failure? ==> r.error == Store.DuplicateName("Category with this name already exists")
    ensures r.Success? ==> r.value.0 == cats + [r.value.1]
    ensures r.Success? ==> (r.value.1.id == Slugify(name) && r.value.1.name == name
      && r.value.1.description == description)
  {
    var entry := Category(Slugify(name), name, OrElse(description, ""), "", "");
    Registry.Create(cats, CategoryName, entry, Store.DuplicateName("Category with this name already exists"))
  }

  /** `updateCategory`: merges `patch` into the first category with that id. It checks
      neither protection nor duplicate names, and may change the id. */
  function UpdateCategory(cats: seq<Category>, id: string, patch: CategoryPatch)
    : (r: Result<(seq<Category>, Category), Store.StoreError>)
    ensures r.Failure? <==> forall i :: 0 <= i < |cats| ==> cats[i].id != id
    ensures r.Failure? ==> r.error == Store.NotFound("Category not found")
    ensures r.Success? ==> exists k :: (Store.IsFirstWithId(cats, CategoryId, id, k)
      && r.value.1 == MergeCategory(cats[k], patch)
      && r.value.0 == cats[k := r.value.1])
  {
    Store.Update(cats, CategoryId, id, c => MergeCategory(c, patch), Store.NotFound("Category not found"))
  }

  /** `deleteCategory`: a default id is refused before any lookup; an unknown id is not
      found; otherwise exactly the first category with that id is removed. */
  function DeleteCategory(cats: seq<Category>, id: string): (r: Result<(seq<Category>, Category), Store.StoreError>)
    ensures id in DefaultCategoryIds ==> r == Failure(Store.ProtectedDefault("Cannot delete default category"))
    ensures id !in DefaultCategoryIds && (forall i :: 0 <= i < |cats| ==> cats[i].id != id)
      ==> r == Failure(Store.NotFound("Category not found"))
    ensures id !in DefaultCategoryIds && !Store.Absent(cats, CategoryId, id) ==> r.Success?
    ensures r.Success? ==> (r.value.1.id == id && r.value.1.id !in DefaultCategoryIds
      && exists k :: (Store.IsFirstWithId(cats, CategoryId, id, k) && r.value.1 == cats[k]
                      && r.value.0 == Seqs.RemoveAt(cats, k)))
  {
    Registry.Delete(cats, CategoryId, DefaultCategoryIds, id,
      Store.ProtectedDefault("Cannot delete default category"), Store.NotFound("Category not found"))
  }

  /** Creating and deleting categories keep names distinct ignoring case; deleting never
      removes a default category. */
  lemma CategoryInvariants(cats: seq<Category>, name: string, description: string, id: string)
    requires Registry.DistinctNames(cats, CategoryName)
    ensures CreateCategory(cats, name, description).Success? ==>
      Registry.DistinctNames(CreateCategory(cats, name, description).value.0, CategoryName)
    ensures DeleteCategory(cats, id).Success? ==>
      var s' := DeleteCategory(cats, id).value.0;
      Registry.DistinctNames(s', CategoryName)
      && forall i :: 0 <= i < |cats| && cats[i].id in DefaultCategoryIds ==> cats[i] in s'
  {
    var entry := Category(Slugify(name), name, OrElse(description, ""), "", "");
    var dup := Store.DuplicateName("Category with this name already exists");
    if Registry.Create(cats, CategoryName, entry, dup).Success? {
      Registry.CreateKeepsDistinct(cats, CategoryName, entry, dup);
    }
    if DeleteCategory(cats, id).Success? {
      Registry.DeleteKeepsDistinctAndDefaults(cats, CategoryName, CategoryId, DefaultCategoryIds, id,
        Store.ProtectedDefault("Cannot delete default category"), Store.NotFound("Category not found"));
    }
  }

  // ----- payment modes -----

  /** `createPaymentMode`: as for categories, with icon `MoreHorizontal` when none is given. */
  function CreatePaymentMode(modes: seq<PaymentMode>, name: string, description: string, icon: string)
    : (r: Result<(seq<PaymentMode>, PaymentMode), Store.StoreError>)
    ensures r.Failure? <==> exists i :: 0 <= i < |modes| && EqualsIgnoringCase(modes[i].name, name)
    ensures r.Failure? ==> r.error == Store.DuplicateName("Payment mode with this name already exists")
    ensures r.Success? ==> r.value.0 == modes + [r.value.1]
    ensures r.Success? ==> (r.value.1.id == Slugify(name) && r.value.1.name == name
      && r.value.1.description == description
      && (icon != "" ==> r.value.1.icon == icon) && (icon == "" ==> r.value.1.icon == "MoreHorizontal"))
  {
    var entry := PaymentMode(Slugify(name), name, OrElse(description, ""), OrElse(icon, "MoreHorizontal"));
    Registry.Create(modes, PaymentModeName, entry, Store.DuplicateName("Payment mode with this name already exists"))
  }

  /** `updatePaymentMode`: merges `patch` into the first mode with that id, unchecked. */
  function UpdatePaymentMode(modes: seq<PaymentMode>, id: string, patch: PaymentModePatch)
    : (r: Result<(seq<PaymentMode>, PaymentMode), Store.StoreError>)
    ensures r.Failure? <==> forall i :: 0 <= i < |modes| ==> modes[i].id != id
    ensures r.Failure? ==> r.error == Store.NotFound("Payment mode not found")
    ensures r.Success? ==> exists k :: (Store.IsFirstWithId(modes, PaymentModeId, id, k)
      && r.value.1 == MergePaymentMode(modes[k], patch)
      && r.value.0 == modes[k := r.value.1])
  {
    Store.Update(modes, PaymentModeId, id, m => MergePaymentMode(m, patch), Store.NotFound("Payment mode not found"))
  }

  /** `deletePaymentMode`: the six default ids are refused before any lookup. */
  function DeletePaymentMode(modes: seq<PaymentMode>, id: string)
    : (r: Result<(seq<PaymentMode>, PaymentMode), Store.StoreError>)
    ensures id in DefaultPaymentModeIds ==> r == Failure(Store.ProtectedDefault("Cannot delete default payment mode"))
    ensures id !in DefaultPaymentModeIds && (forall i :: 0 <= i < |modes| ==> modes[i].id != id)
      ==> r == Failure(Store.NotFound("Payment mode not found"))
    ensures id !in DefaultPaymentModeIds && !Store.Absent(modes, PaymentModeId, id) ==> r.Success?
    ensures r.Success? ==> (r.value.1.id == id && r.value.1.id !in DefaultPaymentModeIds
      && exists k :: (Store.IsFirstWithId(modes, PaymentModeId, id, k) && r.value.1 == modes[k]
                      && r.value.0 == Seqs.RemoveAt(modes, k)))
  {
    Registry.Delete(modes, PaymentModeId, DefaultPaymentModeIds, id,
      Store.ProtectedDefault("Cannot delete default payment mode"), Store.NotFound("Payment mode not found"))
  }

  lemma PaymentModeInvariants(modes: seq<PaymentMode>, name: string, description: string, icon: string, id: string)
    requires Registry.DistinctNames(modes, PaymentModeName)
    ensures CreatePaymentMode(modes, name, description, icon).Success? ==>
      Registry.DistinctNames(CreatePaymentMode(modes, name, description, icon).value.0, PaymentModeName)
    ensures DeletePaymentMode(modes, id).Success? ==>
      var s' := DeletePaymentMode(modes, id).value.0;
      Registry.DistinctNames(s', PaymentModeName)
      && forall i :: 0 <= i < |modes| && modes[i].id in DefaultPaymentModeIds ==> modes[i] in s'
  {
    var entry := PaymentMode(Slugify(name), name, OrElse(description, ""), OrElse(icon, "MoreHorizontal"));
    var dup := Store.DuplicateName("Payment mode with this name already exists");
    if Registry.Create(modes, PaymentModeName, entry, dup).Success? {
      Registry.CreateKeepsDistinct(modes, PaymentModeName, entry, dup);
    }
    if DeletePaymentMode(modes, id).Success? {
      Registry.DeleteKeepsDistinctAndDefaults(modes, PaymentModeName, PaymentModeId, DefaultPaymentModeIds, id,
        Store.ProtectedDefault("Cannot delete default payment mode"), Store.NotFound("Payment mode not found"));
    }
  }

  /** Every entry of the starting lists is protected: its id is among the default ids,
      so deleting it is refused whatever the current list holds. */
  lemma DefaultsProtected(cats: seq<Category>, modes: seq<PaymentMode>)
    ensures forall i :: 0 <= i < |DefaultCategories| ==> DeleteCategory(cats, DefaultCategories[i].id).Failure?
    ensures forall i :: 0 <= i < |DefaultPaymentModes| ==> DeletePaymentMode(modes, DefaultPaymentModes[i].id).Failure?
  {
    DefaultIdsListed();
  }

  lemma DefaultIdsListed()
    ensures forall i :: 0 <= i < |DefaultCategories| ==> DefaultCategories[i].id in DefaultCategoryIds
    ensures forall i :: 0 <= i < |DefaultPaymentModes| ==> DefaultPaymentModes[i].id in DefaultPaymentModeIds
  {
  }

  /** The starting registries already have names distinct ignoring case. */
  lemma DefaultsDistinct()
    ensures Registry.DistinctNames(DefaultCategories, CategoryName)
    ensures Registry.DistinctNames(DefaultPaymentModes, PaymentModeName)
  {
    forall i, j | 0 <= i < j < |DefaultCategories|
      ensures !EqualsIgnoringCase(DefaultCategories[i].name, DefaultCategories[j].name)
    {
      NamesDiffer(DefaultCategories[i].name, DefaultCategories[j].name);
    }
    forall i, j | 0 <= i < j < |DefaultPaymentModes|
      ensures !EqualsIgnoringCase(DefaultPaymentModes[i].name, DefaultPaymentModes[j].name)
    {
      NamesDiffer(DefaultPaymentModes[i].name, DefaultPaymentModes[j].name);
    }
  }

  /** Names of different lengths, or whose first letters differ ignoring case, differ
      ignoring case. */
  lemma NamesDiffer(a: string, b: string)
    requires |a| != |b| || (|a| > 0 && |b| > 0 && LowerChar(a[0]) != LowerChar(b[0]))
    ensures !EqualsIgnoringCase(a, b)
  {
  }

  /** Names that differ only in the length of a whitespace run pass the duplicate check
      yet get the same id: the source does not check derived ids for collisions. */
  lemma SlugCollisionNotChecked(w1: string, sp1: string, sp2: string, w2: string)
    requires NoSpace(w1) && NoSpace(w2)
    requires |sp1| > 0 && IsBlank(sp1) && |sp2| > 0 && IsBlank(sp2) && |sp1| != |sp2|
    ensures var first := CreateCategory([], w1 + sp1 + w2, "");
      && first.Success?
      && var second := CreateCategory(first.value.0, w1 + sp2 + w2, "");
      && second.Success?
      && |second.value.0| == 2
      && second.value.0[0].id == second.value.0[1].id
  {
    SlugOfWords(w1, sp1, w2);
    SlugOfWords(w1, sp2, w2);
    var first := CreateCategory([], w1 + sp1 + w2, "");
    assert |Lower(first.value.1.name)| != |Lower(w1 + sp2 + w2)|;
  }

  /** The slug of two words joined by whitespace is the lower-cased words joined by `-`. */
  lemma SlugOfWords(w1: string, sp: string, w2: string)
    requires NoSpace(w1) && NoSpace(w2) && |sp| > 0 && IsBlank(sp)
    ensures Slugify(w1 + sp + w2) == Lower(w1) + "-" + Lower(w2)
  {
    assert Lower(sp) == sp;
    assert Lower(w1 + sp + w2) == Lower(w1) + sp + Lower(w2);
    CollapseBetweenWords(Lower(w1), sp, Lower(w2));
  }

  /** `updateCategory` does not protect the defaults: a patch carrying a new id renames
      a default category away, after which its default id is no longer found. */
  lemma UpdateCanRenameDefault(cats: seq<Category>, id: string, newId: string)
    requires id in DefaultCategoryIds && newId != id
    requires Store.UniqueIds(cats, CategoryId) && !Store.Absent(cats, CategoryId, id)
    ensures var r := UpdateCategory(cats, id, CategoryPatch(Some(newId), None, None, None, None));
      r.Success? && r.value.1.id == newId && Store.Absent(r.value.0, CategoryId, id)
  {
  }
}

=== FILE: forms.dfy ===
/** The two validating forms, TripForm.jsx and CategoryForm.jsx. Errors are a map from
    field to message, as the components keep them, with the field names as a datatype;
    an empty text or number input is `""` or `None`. */
module FormErrors {
  /** `handleChange`'s clearing step: a field with a non-empty error gets `''`; every
      other entry, and a map without a shown error for the field, stays as it was. */
  function ClearFieldError<F>(errors: map<F, string>, field: F): (r: map<F, string>)
    ensures r.Keys == errors.Keys
    ensures forall k :: k in errors && k != field ==> r[k] == errors[k]
    ensures field in r ==> r[field] == ""
  {
    if field in errors && errors[field] != "" then errors[field := ""] else errors
  }

  /** Clearing is idempotent, and clearing two fields in either order gives the same map. */
  lemma ClearCommutes<F>(errors: map<F, string>, a: F, b: F)
    ensures ClearFieldError(ClearFieldError(errors, a), a) == ClearFieldError(errors, a)
    ensures ClearFieldError(ClearFieldError(errors, a), b) == ClearFieldError(ClearFieldError(errors, b), a)
  {
  }
}

module TripForm {
  import opened Wrappers
  import opened Text
  import Records

  /** The trip form's fields, by the names its inputs carry. */
  datatype Field = Name | Destination | StartDate | EndDate | Budget | Currency | Description

  /** The trip form's values; dates are day numbers and the budget the parsed number. */
  datatype Fields = Fields(
    name: string,
    destination: string,
    startDate: Option<int>,
    endDate: Option<int>,
    budget: Option<real>,
    currency: string,
    description: string)

  const NameRequired := "Trip name is required"
  const DestinationRequired := "Destination is required"
  const StartRequired := "Start date is required"
  const EndRequired := "End date is required"
  const EndAfterStart := "End date must be after start date"
  const BudgetPositive := "Budget must be a positive number"

  /** The message `validateForm` records for one field, if any. A blank name or
      destination (all whitespace, which is what `Trim` empties: see `Text.Trim`), a missing date, an end date not after the start
      date, or a missing or non-positive budget. When the end date is missing its message
      is the required one; the ordering check runs only with both dates present. */
  function ErrorFor(f: Fields, field: Field): Option<string> {
    match field
    case Name => if IsBlank(f.name) then Some(NameRequired) else None
    case Destination => if IsBlank(f.destination) then Some(DestinationRequired) else None
    case StartDate => if f.startDate.None? then Some(StartRequired) else None
    case EndDate =>
      if f.endDate.None? then Some(EndRequired)
      else if f.startDate.Some? && f.endDate.value <= f.startDate.value then Some(EndAfterStart)
      else None
    case Budget => if f.budget.None? || f.budget.value <= 0.0 then Some(BudgetPositive) else None
    case Currency => None
    case Description => None
  }

  const Checked: set<Field> := {Name, Destination, StartDate, EndDate, Budget}

  /** `validateForm`: one message per failing field. */
  function Validate(f: Fields): (errors: map<Field, string>)
    ensures Name in errors <==> IsBlank(f.name)
    ensures Destination in errors <==> IsBlank(f.destination)
    ensures StartDate in errors <==> f.startDate.None?
    ensures EndDate in errors <==> f.endDate.None? || (f.startDate.Some? && f.endDate.value <= f.startDate.value)
    ensures Budget in errors <==> f.budget.None? || f.budget.value <= 0.0
    ensures Currency !in errors && Description !in errors
    ensures Name in errors ==> errors[Name] == NameRequired
    ensures Destination in errors ==> errors[Destination] == DestinationRequired
    ensures StartDate in errors ==> errors[StartDate] == StartRequired
    ensures f.endDate.None? ==> errors[EndDate] == EndRequired
    ensures f.endDate.Some? && EndDate in errors ==> errors[EndDate] == EndAfterStart
    ensures Budget in errors ==> errors[Budget] == BudgetPositive
  {
    map k | k in Checked && ErrorFor(f, k).Some? :: ErrorFor(f, k).value
  }

  /** The form is valid when no error was recorded. */
  predicate Valid(f: Fields) {
    |Validate(f)| == 0
  }

  /** Validity, stated field by field. */
  lemma ValidIff(f: Fields)
    ensures Valid(f) <==> (!IsBlank(f.name) && !IsBlank(f.destination)
      && f.startDate.Some? && f.endDate.Some? && f.startDate.value < f.endDate.value
      && f.budget.Some? && f.budget.value > 0.0)
  {
  }

  /** `handleSubmit`: the trip data with the budget as a number, only for a valid form.
      The store assigns the id and the status. */
  function Submit(f: Fields): (r: Option<Records.Trip>)
    ensures r.Some? <==> Valid(f)
    ensures r.Some? ==> (r.value.name == f.name && r.value.destination == f.destination
      && r.value.currency == f.currency && r.value.description == f.description)
    ensures r.Some? ==> (f.startDate == Some(r.value.startDate) && f.endDate == Some(r.value.endDate)
      && f.budget == Some(r.value.budget))
  {
    if Valid(f) then
      ValidIff(f);
      Some(Records.Trip("", f.name, f.destination, f.startDate.value, f.endDate.value,
                        f.budget.value, f.currency, "", f.description))
    else None
  }

  /** A submitted trip has a positive budget and ends after it starts, so its progress
      is always defined. */
  lemma SubmittedTripIsWellFormed(f: Fields)
    requires Submit(f).Some?
    ensures Submit(f).value.budget > 0.0
    ensures Submit(f).value.startDate < Submit(f).value.endDate
  {
  }
}

module CategoryForm {
  import opened Wrappers
  import opened Text

  datatype Field = Name | Description

  datatype Fields = Fields(name: string, description: string)

  /** The form's values and its error map. */
  datatype State = State(fields: Fields, errors: map<Field, string>)

  const NameRequired := "Category name is required"
  const NameTooShort := "Category name must be at least 2 characters"

  /** `validateForm`: a name that is blank after trimming is required; a trimmed name of
      one UTF-16 code unit is too short; the description is never checked. */
  function Validate(f: Fields): (errors: map<Field, string>)
    ensures Name in errors <==> Utf16Length(Trim(f.name)) < 2
    ensures Description !in errors
    ensures IsBlank(f.name) ==> errors[Name] == NameRequired
    ensures Utf16Length(Trim(f.name)) == 1 ==> errors[Name] == NameTooShort
    ensures |Trim(f.name)| >= 2 ==> Name !in errors
  {
    if Trim(f.name) == [] then map[Name := NameRequired]
    else if Utf16Length(Trim(f.name)) < 2 then map[Name := NameTooShort]
    else map[]
  }

  predicate Valid(f: Fields) {
    |Validate(f)| == 0
  }

  /** The form is valid exactly when its trimmed name is at least two UTF-16 code units long. */
  lemma ValidIff(f: Fields)
    ensures Valid(f) <==> Utf16Length(Trim(f.name)) >= 2
  {
    if Utf16Length(Trim(f.name)) < 2 {
      assert Name in Validate(f);
    }
  }

  const Empty: State := State(Fields("", ""), map[])

  /** `handleSubmit`: a valid form hands on the trimmed name and description and is
      reset; an invalid one keeps its fields and shows the new errors. */
  function Submit(st: State): (r: (State, Option<Fields>))
    ensures Valid(st.fields) ==> r.0 == Empty && r.1 == Some(Fields(Trim(st.fields.name), Trim(st.fields.description)))
    ensures !Valid(st.fields) ==> r.1.None? && r.0 == State(st.fields, Validate(st.fields))
  {
    if Valid(st.fields) then (Empty, Some(Fields(Trim(st.fields.name), Trim(st.fields.description))))
    else (State(st.fields, Validate(st.fields)), None)
  }

  /** `handleClose`: fields and errors are reset whatever they held. */
  function Close(st: State): (r: State)
    ensures r.fields.name == "" && r.fields.description == "" && |r.errors| == 0
  {
    Empty
  }

  /** What is submitted is at least two UTF-16 code units long, has no surrounding
      whitespace, and would itself pass validation unchanged. */
  lemma SubmittedNameIsClean(st: State)
    requires Submit(st).1.Some?
    ensures var x := Submit(st).1.value;
      Utf16Length(x.name) >= 2 && |x.name| >= 1
      && !IsSpace(x.name[0]) && !IsSpace(x.name[|x.name| - 1])
      && Trim(x.name) == x.name && Valid(x)
  {
    var n := Trim(st.fields.name);
    ValidIff(st.fields);
    assert Utf16Length(n) >= 2;
    var x := Submit(st).1.value;
    assert x.name == n;
    TrimmedNameFacts(st.fields.name);
    ValidIff(x);
  }

  /** A trimmed name that is not blank starts and ends with a non-space and trims to itself. */
  lemma TrimmedNameFacts(name: string)
    requires !IsBlank(name)
    ensures var n := Trim(name); |n| >= 1 && !IsSpace(n[0]) && !IsSpace(n[|n| - 1]) && Trim(n) == n
  {
    TrimIdempotent(name);
  }

  /** A name of one emoji is two UTF-16 code units long, so it passes validation even
      though it is a single character. */
  lemma SingleEmojiNameIsValid()
    ensures Valid(Fields("\U{1F600}", ""))
  {
    var s := "\U{1F600}";
    assert TrimStart(s) == s;
    assert Trim(s) == s;
  }
}

=== FILE: projections.dfy ===
/** What the pages show of the expense list: the category filter, the list updates after
    a store call (HomePage.jsx, Home.jsx), the lookups with fallbacks of MainFeature.jsx
    and ExpenseList.jsx, and the per-card choices of ExpenseCard.jsx. */
module Projections {
  import opened Wrappers
  import opened Text
  import opened Records
  import Seqs
  import Store
  import ExpenseService

  predicate InCategory(e: Expense, category: string) {
    e.category == category
  }

  /** `filteredExpenses`: everything for `all`, otherwise the expenses of exactly that
      category, in list order. */
  function FilterByCategory(es: seq<Expense>, selected: string): (r: seq<Expense>)
    ensures selected == "all" ==> r == es
    ensures selected != "all" ==> forall i :: 0 <= i < |r| ==> r[i].category == selected
    ensures selected != "all" ==> forall i :: 0 <= i < |es| && es[i].category == selected ==> es[i] in r
    ensures forall e :: multiset(r)[e] == if selected == "all" || e.category == selected then multiset(es)[e] else 0
  {
    if selected == "all" then es
    else
      var p := (e: Expense) => InCategory(e, selected);
      FilterCountAll(es, p);
      Seqs.Filter(es, p)
  }

  lemma FilterCountAll(es: seq<Expense>, p: Expense -> bool)
    ensures forall e :: multiset(Seqs.Filter(es, p))[e] == if p(e) then multiset(es)[e] else 0
  {
    forall e: Expense
      ensures multiset(Seqs.Filter(es, p))[e] == if p(e) then multiset(es)[e] else 0
    {
      Seqs.FilterCount(es, p, e);
    }
  }

  /** Applying the filter twice is applying it once. */
  lemma FilterByCategoryIdempotent(es: seq<Expense>, selected: string)
    ensures FilterByCategory(FilterByCategory(es, selected), selected) == FilterByCategory(es, selected)
  {
    if selected != "all" {
      Seqs.FilterIdempotent(es, e => InCategory(e, selected));
    }
  }

  /** The filter keeps list order: filtering a concatenation concatenates the filtered parts. */
  lemma FilterByCategoryKeepsOrder(a: seq<Expense>, b: seq<Expense>, selected: string)
    ensures FilterByCategory(a + b, selected) == FilterByCategory(a, selected) + FilterByCategory(b, selected)
  {
    if selected != "all" {
      Seqs.FilterConcat(a, b, e => InCategory(e, selected));
    }
  }

  /** The per-element step of `prev.map(exp => exp.id === updated.id ? updated : exp)`. */
  function Replacing(updated: Expense): Expense -> Expense {
    (e: Expense) => if e.id == updated.id then updated else e
  }

  /** Replace-by-id: same length, every record with the updated id replaced, every
      other record unchanged. */
  function ReplaceById(list: seq<Expense>, updated: Expense): (r: seq<Expense>)
    ensures |r| == |list|
    ensures forall i :: 0 <= i < |list| && list[i].id == updated.id ==> r[i] == updated
    ensures forall i :: 0 <= i < |list| && list[i].id != updated.id ==> r[i] == list[i]
  {
    Seqs.Map(list, Replacing(updated))
  }

  predicate NotId(e: Expense, id: string) {
    e.id != id
  }

  /** `prev.filter(exp => exp.id !== id)`: every record with that id goes, the others
      stay in order. */
  function RemoveById(list: seq<Expense>, id: string): (r: seq<Expense>)
    ensures forall i :: 0 <= i < |r| ==> r[i].id != id
    ensures forall i :: 0 <= i < |list| && list[i].id != id ==> list[i] in r
    ensures |r| <= |list|
  {
    Seqs.Filter(list, e => NotId(e, id))
  }

  /** With unique ids, the page's list updates mirror the store: appending the created
      record, replacing the updated one and removing the deleted one yield exactly the
      store's new list. */
  lemma PageMirrorsStore(s: seq<Expense>, data: Expense, newId: string, id: string, patch: ExpensePatch)
    requires Store.UniqueIds(s, ExpenseService.ExpenseId)
    requires patch.id.None?
    ensures var c := ExpenseService.Create(s, data, newId); s + [c.1] == c.0
    ensures ExpenseService.Update(s, id, patch).Success? ==>
      var u := ExpenseService.Update(s, id, patch).value; ReplaceById(s, u.1) == u.0
    ensures ExpenseService.Delete(s, id).Success? ==>
      RemoveById(s, id) == ExpenseService.Delete(s, id).value.0
  {
    if ExpenseService.Update(s, id, patch).Success? {
      UpdateMirrors(s, id, patch);
    }
    if ExpenseService.Delete(s, id).Success? {
      var k := Store.IndexOf(s, ExpenseService.ExpenseId, id).value;
      RemoveUnique(s, id, k);
    }
  }

  lemma UpdateMirrors(s: seq<Expense>, id: string, patch: ExpensePatch)
    requires Store.UniqueIds(s, ExpenseService.ExpenseId)
    requires patch.id.None? && ExpenseService.Update(s, id, patch).Success?
    ensures var u := ExpenseService.Update(s, id, patch).value; ReplaceById(s, u.1) == u.0
  {
  }

  lemma RemoveUnique(s: seq<Expense>, id: string, k: nat)
    requires Store.UniqueIds(s, ExpenseService.ExpenseId)
    requires k < |s| && s[k].id == id
    ensures RemoveById(s, id) == Seqs.RemoveAt(s, k)
  {
    var p := (e: Expense) => NotId(e, id);
    forall i | 0 <= i < |s| && i != k
      ensures p(s[i])
    {
      if i < k {
        assert ExpenseService.ExpenseId(s[i]) != ExpenseService.ExpenseId(s[k]);
      } else {
        assert ExpenseService.ExpenseId(s[k]) != ExpenseService.ExpenseId(s[i]);
      }
    }
    Seqs.FilterDropsOne(s, p, k);
  }

  // ----- lookups with fallbacks -----

  /** The four categories HomePage.jsx and MainFeature.jsx display. */
  const PageCategories: seq<Category> := [
    Category("transport", "Transport", "", "Car", "bg-blue-100 text-blue-800 dark:bg-blue-900 dark:text-blue-200"),
    Category("accommodation", "Accommodation", "", "Bed", "bg-green-100 text-green-800 dark:bg-green-900 dark:text-green-200"),
    Category("meals", "Meals", "", "Coffee", "bg-orange-100 text-orange-800 dark:bg-orange-900 dark:text-orange-200"),
    Category("other", "Other", "", "ShoppingBag", "bg-purple-100 text-purple-800 dark:bg-purple-900 dark:text-purple-200")
  ]

  function CategoryId(c: Category): string { c.id }

  /** `categories.find(cat => cat.id === id) || categories[3]`: the first match, else the
      fourth entry, which is undefined on a list shorter than four. */
  function GetCategoryInfo(cats: seq<Category>, id: string): (r: Option<Category>)
    ensures !Store.Absent(cats, CategoryId, id) ==>
      r.Some? && exists k :: Store.IsFirstWithId(cats, CategoryId, id, k) && r.value == cats[k]
    ensures Store.Absent(cats, CategoryId, id) && |cats| > 3 ==> r == Some(cats[3])
    ensures Store.Absent(cats, CategoryId, id) && |cats| <= 3 ==> r == None
  {
    match Store.GetById(cats, CategoryId, id)
    case Some(c) => Some(c)
    case None => if |cats| > 3 then Some(cats[3]) else None
  }

  /** On the pages' own list the lookup never fails, and an unknown id shows as `other`. */
  lemma PageCategoryFallback(id: string)
    ensures GetCategoryInfo(PageCategories, id).Some?
    ensures id !in {"transport", "accommodation", "meals", "other"} ==>
      GetCategoryInfo(PageCategories, id).value.id == "other"
  {
  }

  /** `paymentModes?.find(mode => mode.id === id) || { name: 'Cash', icon: 'Banknote' }`:
      an absent list or an unknown id both give the cash entry. */
  function GetPaymentModeInfo(modes: Option<seq<PaymentMode>>, id: string): (r: PaymentMode)
    ensures modes.Some? && !Store.Absent(modes.value, ExpenseService.PaymentModeId, id) ==>
      exists k :: Store.IsFirstWithId(modes.value, ExpenseService.PaymentModeId, id, k) && r == modes.value[k]
    ensures modes.None? || Store.Absent(modes.value, ExpenseService.PaymentModeId, id) ==>
      r.name == "Cash" && r.icon == "Banknote"
  {
    if modes.None? then PaymentMode("", "Cash", "", "Banknote")
    else match Store.GetById(modes.value, ExpenseService.PaymentModeId, id)
      case Some(m) => m
      case None => PaymentMode("", "Cash", "", "Banknote")
  }

  /** ExpenseCard.jsx's icon table for payment modes. */
  function PaymentModeIcon(mode: string): (r: string)
    ensures mode !in ExpenseService.DefaultPaymentModeIds ==> r == "MoreHorizontal"
    ensures mode == "credit-card" || mode == "debit-card" ==> r == "CreditCard"
  {
    if mode == "cash" then "Banknote"
    else if mode == "credit-card" then "CreditCard"
    else if mode == "debit-card" then "CreditCard"
    else if mode == "bank-transfer" then "ArrowLeftRight"
    else if mode == "digital-wallet" then "Smartphone"
    else if mode == "other" then "MoreHorizontal"
    else "MoreHorizontal"
  }

  /** The card's icon table agrees with the icons the registry gives its default modes. */
  lemma IconTableMatchesDefaults()
    ensures forall i :: 0 <= i < |ExpenseService.DefaultPaymentModes| ==>
      PaymentModeIcon(ExpenseService.DefaultPaymentModes[i].id) == ExpenseService.DefaultPaymentModes[i].icon
  {
  }

  /** What one expense card shows besides the raw fields. */
  datatype CardView = CardView(
    categoryIcon: string,
    categoryName: string,
    paymentIcon: string,
    paymentName: string,
    showCurrencyTag: bool)

  /** ExpenseCard.jsx: a missing category, or an empty icon or name, shows icon `Package`
      and name `Other`; a missing payment mode or an empty mode name shows `Cash`; the
      currency tag appears exactly for a foreign currency. */
  function ExpenseCardView(e: Expense, categoryInfo: Option<Category>, paymentModeInfo: Option<PaymentMode>,
                           tripCurrency: string): (r: CardView)
    ensures (categoryInfo.None? || categoryInfo.value.icon == "") ==> r.categoryIcon == "Package"
    ensures (categoryInfo.None? || categoryInfo.value.name == "") ==> r.categoryName == "Other"
    ensures categoryInfo.Some? && categoryInfo.value.icon != "" ==> r.categoryIcon == categoryInfo.value.icon
    ensures categoryInfo.Some? && categoryInfo.value.name != "" ==> r.categoryName == categoryInfo.value.name
    ensures (paymentModeInfo.None? || paymentModeInfo.value.name == "") ==> r.paymentName == "Cash"
    ensures paymentModeInfo.Some? && paymentModeInfo.value.name != "" ==> r.paymentName == paymentModeInfo.value.name
    ensures r.paymentIcon == PaymentModeIcon(e.paymentMode)
    ensures r.showCurrencyTag <==> e.currency != tripCurrency
  {
    var icon := if categoryInfo.Some? then categoryInfo.value.icon else "";
    var name := if categoryInfo.Some? then categoryInfo.value.name else "";
    var payName := if paymentModeInfo.Some? then paymentModeInfo.value.name else "";
    CardView(OrElse(icon, "Package"), OrElse(name, "Other"), PaymentModeIcon(e.paymentMode),
             OrElse(payName, "Cash"), e.currency != tripCurrency)
  }

  /** ExpenseList.jsx: the header count and one card per expense, in list order. */
  datatype ListView = ListView(count: nat, cards: seq<CardView>)

  function ExpenseListView(es: seq<Expense>, tripCurrency: string, cats: seq<Category>,
                           modes: Option<seq<PaymentMode>>): (r: ListView)
    ensures r.count == |es| && |r.cards| == |es|
    ensures forall i :: 0 <= i < |es| ==> (r.cards[i].showCurrencyTag <==> es[i].currency != tripCurrency)
    ensures forall i :: 0 <= i < |es| ==> r.cards[i].paymentIcon == PaymentModeIcon(es[i].paymentMode)
    ensures modes.None? ==> forall i :: 0 <= i < |es| ==> r.cards[i].paymentName == "Cash"
    ensures forall i :: 0 <= i < |es| && Store.Absent(cats, CategoryId, es[i].category) && |cats| <= 3 ==>
      r.cards[i].categoryIcon == "Package" && r.cards[i].categoryName == "Other"
    ensures forall i :: 0 <= i < |es| ==>
      r.cards[i] == ExpenseCardView(es[i], GetCategoryInfo(cats, es[i].category),
                                    Some(GetPaymentModeInfo(modes, es[i].paymentMode)), tripCurrency)
  {
    ListView(|es|, seq(|es|, i requires 0 <= i < |es| =>
      ExpenseCardView(es[i], GetCategoryInfo(cats, es[i].category),
                      Some(GetPaymentModeInfo(modes, es[i].paymentMode)), tripCurrency)))
  }

  /** HomePage.jsx gives ExpenseList no payment modes, so every card names the mode `Cash`. */
  lemma HomePageNamesEveryModeCash(es: seq<Expense>, tripCurrency: string)
    ensures forall i :: 0 <= i < |es| ==>
      ExpenseListView(es, tripCurrency, PageCategories, None).cards[i].paymentName == "Cash"
  {
  }
}

=== FILE: records.dfy ===
/** The records the stores hold, and the partial updates (`{ ...record, ...updates }`)
    applied to them. A string field the source may leave undefined is `""` here:
    every place the source reads such a field it treats undefined and `''` alike.
    Dates are whole day numbers; amounts are exact reals. */
module Records {
  import opened Wrappers

  datatype Trip = Trip(
    id: string,
    name: string,
    destination: string,
    startDate: int,
    endDate: int,
    budget: real,
    currency: string,
    status: string,
    description: string)

  /** An `updates` object for a trip: `None` is a key the object does not carry. */
  datatype TripPatch = TripPatch(
    id: Option<string>,
    name: Option<string>,
    destination: Option<string>,
    startDate: Option<int>,
    endDate: Option<int>,
    budget: Option<real>,
    currency: Option<string>,
    status: Option<string>,
    description: Option<string>)

  function MergeTrip(t: Trip, p: TripPatch): Trip {
    Trip(p.id.GetOr(t.id), p.name.GetOr(t.name), p.destination.GetOr(t.destination),
         p.startDate.GetOr(t.startDate), p.endDate.GetOr(t.endDate), p.budget.GetOr(t.budget),
         p.currency.GetOr(t.currency), p.status.GetOr(t.status), p.description.GetOr(t.description))
  }

  datatype Expense = Expense(
    id: string,
    tripId: string,
    amount: real,
    currency: string,
    convertedAmount: Option<real>,
    category: string,
    paymentMode: string,
    merchant: string,
    date: int,
    notes: string,
    receiptUrl: string)

  datatype ExpensePatch = ExpensePatch(
    id: Option<string>,
    tripId: Option<string>,
    amount: Option<real>,
    currency: Option<string>,
    convertedAmount: Option<Option<real>>,
    category: Option<string>,
    paymentMode: Option<string>,
    merchant: Option<string>,
    date: Option<int>,
    notes: Option<string>,
    receiptUrl: Option<string>)

  function MergeExpense(e: Expense, p: ExpensePatch): Expense {
    Expense(p.id.GetOr(e.id), p.tripId.GetOr(e.tripId), p.amount.GetOr(e.amount),
            p.currency.GetOr(e.currency), p.convertedAmount.GetOr(e.convertedAmount),
            p.category.GetOr(e.category), p.paymentMode.GetOr(e.paymentMode),
            p.merchant.GetOr(e.merchant), p.date.GetOr(e.date), p.notes.GetOr(e.notes),
            p.receiptUrl.GetOr(e.receiptUrl))
  }

  datatype ExchangeRate = ExchangeRate(
    id: string,
    fromCurrency: string,
    toCurrency: string,
    rate: real,
    timestamp: int)

  datatype RatePatch = RatePatch(
    id: Option<string>,
    fromCurrency: Option<string>,
    toCurrency: Option<string>,
    rate: Option<real>,
    timestamp: Option<int>)

  function MergeRate(x: ExchangeRate, p: RatePatch): ExchangeRate {
    ExchangeRate(p.id.GetOr(x.id), p.fromCurrency.GetOr(x.fromCurrency),
                 p.toCurrency.GetOr(x.toCurrency), p.rate.GetOr(x.rate),
                 p.timestamp.GetOr(x.timestamp))
  }

  /** A category; the registry's entries carry no icon or colour (`""`), the pages'
      fixed lists do. */
  datatype Category = Category(id: string, name: string, description: string, icon: string, color: string)

  datatype CategoryPatch = CategoryPatch(
    id: Option<string>,
    name: Option<string>,
    description: Option<string>,
    icon: Option<string>,
    color: Option<string>)

  function MergeCategory(c: Category, p: CategoryPatch): Category {
    Category(p.id.GetOr(c.id), p.name.GetOr(c.name), p.description.GetOr(c.description),
             p.icon.GetOr(c.icon), p.color.GetOr(c.color))
  }

  datatype PaymentMode = PaymentMode(id: string, name: string, description: string, icon: string)

  datatype PaymentModePatch = PaymentModePatch(
    id: Option<string>,
    name: Option<string>,
    description: Option<string>,
    icon: Option<string>)

  function MergePaymentMode(m: PaymentMode, p: PaymentModePatch): PaymentMode {
    PaymentMode(p.id.GetOr(m.id), p.name.GetOr(m.name), p.description.GetOr(m.description),
                p.icon.GetOr(m.icon))
  }

  /** An update object may rename the record only through an `id` key. */
  lemma MergeKeepsId(t: Trip, tp: TripPatch, e: Expense, ep: ExpensePatch, x: ExchangeRate, xp: RatePatch,
                     c: Category, cp: CategoryPatch, m: PaymentMode, mp: PaymentModePatch)
    ensures tp.id.None? ==> MergeTrip(t, tp).id == t.id
    ensures ep.id.None? ==> MergeExpense(e, ep).id == e.id
    ensures xp.id.None? ==> MergeRate(x, xp).id == x.id
    ensures cp.id.None? ==> MergeCategory(c, cp).id == c.id
    ensures mp.id.None? ==> MergePaymentMode(m, mp).id == m.id
  {
  }

  /** Fields the update object does not carry keep their old values; fields it carries
      take the new ones. */
  lemma MergeExpenseFields(e: Expense, p: ExpensePatch)
    ensures var r := MergeExpense(e, p);
      && (p.tripId.None? ==> r.tripId == e.tripId) && (p.tripId.Some? ==> r.tripId == p.tripId.value)
      && (p.amount.None? ==> r.amount == e.amount) && (p.amount.Some? ==> r.amount == p.amount.value)
      && (p.currency.None? ==> r.currency == e.currency) && (p.currency.Some? ==> r.currency == p.currency.value)
      && (p.convertedAmount.None? ==> r.convertedAmount == e.convertedAmount)
      && (p.convertedAmount.Some? ==> r.convertedAmount == p.convertedAmount.value)
      && (p.category.None? ==> r.category == e.category) && (p.category.Some? ==> r.category == p.category.value)
      && (p.paymentMode.None? ==> r.paymentMode == e.paymentMode)
      && (p.paymentMode.Some? ==> r.paymentMode == p.paymentMode.value)
      && (p.merchant.None? ==> r.merchant == e.merchant) && (p.merchant.Some? ==> r.merchant == p.merchant.value)
      && (p.date.None? ==> r.date == e.date) && (p.date.Some? ==> r.date == p.date.value)
      && (p.notes.None? ==> r.notes == e.notes) && (p.notes.Some? ==> r.notes == p.notes.value)
      && (p.receiptUrl.None? ==> r.receiptUrl == e.receiptUrl)
      && (p.receiptUrl.Some? ==> r.receiptUrl == p.receiptUrl.value)
  {
  }

  /** Applying the same update object twice is applying it once. */
  lemma MergeIdempotent(t: Trip, tp: TripPatch, e: Expense, ep: ExpensePatch, x: ExchangeRate, xp: RatePatch)
    ensures MergeTrip(MergeTrip(t, tp), tp) == MergeTrip(t, tp)
    ensures MergeExpense(MergeExpense(e, ep), ep) == MergeExpense(e, ep)
    ensures MergeRate(MergeRate(x, xp), xp) == MergeRate(x, xp)
  {
  }
}

=== FILE: registry.dfy ===
/** The rules categories and payment modes share: creation refuses a name already
    present ignoring case, and deletion refuses a fixed set of default ids before it
    looks anything up. */
module Registry {
  import opened Wrappers
  import opened Text
  import Seqs
  import Store

  /** Some entry's name equals `name` ignoring case. */
  predicate NameTaken<T>(s: seq<T>, nameOf: T -> string, name: string) {
    exists i :: 0 <= i < |s| && EqualsIgnoringCase(nameOf(s[i]), name)
  }

  /** No two entries have names equal ignoring case. */
  predicate DistinctNames<T>(s: seq<T>, nameOf: T -> string) {
    forall i, j :: 0 <= i < j < |s| ==> !EqualsIgnoringCase(nameOf(s[i]), nameOf(s[j]))
  }

  /** Appends `entry` unless its name is already taken ignoring case. */
  function Create<T>(s: seq<T>, nameOf: T -> string, entry: T, duplicate: Store.StoreError)
    : (r: Result<(seq<T>, T), Store.StoreError>)
    ensures r.Failure? <==> NameTaken(s, nameOf, nameOf(entry))
    ensures r.Failure? ==> r.error == duplicate
    ensures r.Success? ==> r.value.1 == entry && r.value.0 == s + [entry]
  {
    if Seqs.FirstIndex(s, x => EqualsIgnoringCase(nameOf(x), nameOf(entry))).Some? then
      Failure(duplicate)
    else
      Success((s + [entry], entry))
  }

  /** Refuses a default id outright; otherwise removes the first entry with that id,
      or fails with `notFound`. */
  function Delete<T>(s: seq<T>, idOf: T -> string, defaults: set<string>, id: string,
                     protected: Store.StoreError, notFound: Store.StoreError)
    : (r: Result<(seq<T>, T), Store.StoreError>)
    ensures id in defaults ==> r == Failure(protected)
    ensures id !in defaults && Store.Absent(s, idOf, id) ==> r == Failure(notFound)
    ensures r.Success? ==> id !in defaults && exists k :: (Store.IsFirstWithId(s, idOf, id, k)
      && r.value.1 == s[k] && r.value.0 == Seqs.RemoveAt(s, k))
    ensures id !in defaults && !Store.Absent(s, idOf, id) ==> r.Success?
  {
    if id in defaults then Failure(protected)
    else Store.Delete(s, idOf, id, notFound)
  }

  /** Creation keeps the names distinct ignoring case. */
  lemma CreateKeepsDistinct<T>(s: seq<T>, nameOf: T -> string, entry: T, duplicate: Store.StoreError)
    requires DistinctNames(s, nameOf)
    requires Create(s, nameOf, entry, duplicate).Success?
    ensures DistinctNames(Create(s, nameOf, entry, duplicate).value.0, nameOf)
  {
  }

  /** Deletion keeps the names distinct, and every entry with a default id survives it. */
  lemma DeleteKeepsDistinctAndDefaults<T>(s: seq<T>, nameOf: T -> string, idOf: T -> string, defaults: set<string>,
                                          id: string, protected: Store.StoreError, notFound: Store.StoreError)
    requires Delete(s, idOf, defaults, id, protected, notFound).Success?
    ensures var s' := Delete(s, idOf, defaults, id, protected, notFound).value.0;
      && (DistinctNames(s, nameOf) ==> DistinctNames(s', nameOf))
      && (forall i :: 0 <= i < |s| && idOf(s[i]) in defaults ==> s[i] in s')
  {
  }
}

=== FILE: seqs.dfy ===
/** Order-keeping list operations shared by the stores and the views:
    the source's `find`, `findIndex` and `filter` on arrays. */
module Seqs {
  import opened Wrappers

  /** `k` is the index `findIndex(p)` returns: the first element satisfying `p`. */
  ghost predicate IsFirst<T>(s: seq<T>, p: T -> bool, k: int) {
    0 <= k < |s| && p(s[k]) && forall j :: 0 <= j < k ==> !p(s[j])
  }

  /** The first index whose element satisfies `p`, or `None` when no element does. */
  function FirstIndex<T>(s: seq<T>, p: T -> bool): (r: Option<nat>)
    ensures r.None? <==> forall i :: 0 <= i < |s| ==> !p(s[i])
    ensures r.Some? ==> IsFirst(s, p, r.value)
  {
    if |s| == 0 then None
    else if p(s[0]) then Some(0)
    else match FirstIndex(s[1..], p)
      case None => None
      case Some(k) => Some(k + 1)
  }

  /** At most one index is the first match. */
  lemma FirstIsUnique<T>(s: seq<T>, p: T -> bool, k: int, k': int)
    requires IsFirst(s, p, k) && IsFirst(s, p, k')
    ensures k == k'
  {
  }

  /** The elements of `s` that satisfy `p`, in their original order. */
  function Filter<T>(s: seq<T>, p: T -> bool): (r: seq<T>)
    ensures |r| <= |s|
    ensures forall i :: 0 <= i < |r| ==> p(r[i])
    ensures forall i :: 0 <= i < |r| ==> r[i] in s
    ensures forall i :: 0 <= i < |s| && p(s[i]) ==> s[i] in r
  {
    if |s| == 0 then []
    else
      assert s == [s[0]] + s[1..];
      if p(s[0]) then [s[0]] + Filter(s[1..], p)
      else Filter(s[1..], p)
  }

  /** Filtering a concatenation filters each part and keeps them in order:
      this is what "original order is kept" means for `Filter`. */
  lemma {:induction false} FilterConcat<T>(a: seq<T>, b: seq<T>, p: T -> bool)
    ensures Filter(a + b, p) == Filter(a, p) + Filter(b, p)
  {
    if |a| == 0 {
      assert a + b == b;
    } else {
      assert (a + b)[1..] == a[1..] + b;
      FilterConcat(a[1..], b, p);
    }
  }

  /** A list whose every element passes the test comes back unchanged. */
  lemma {:induction false} FilterAll<T>(s: seq<T>, p: T -> bool)
    requires forall i :: 0 <= i < |s| ==> p(s[i])
    ensures Filter(s, p) == s
  {
    if |s| > 0 {
      FilterAll(s[1..], p);
    }
  }

  /** A list in which nothing passes the test filters to the empty list. */
  lemma {:induction false} FilterNone<T>(s: seq<T>, p: T -> bool)
    requires forall i :: 0 <= i < |s| ==> !p(s[i])
    ensures Filter(s, p) == []
  {
    if |s| > 0 {
      FilterNone(s[1..], p);
    }
  }

  /** Filtering twice with the same test is filtering once. */
  lemma FilterIdempotent<T>(s: seq<T>, p: T -> bool)
    ensures Filter(Filter(s, p), p) == Filter(s, p)
  {
  }

  /** The number of occurrences of `x` survives exactly when `x` passes. */
  lemma {:induction false} FilterCount<T>(s: seq<T>, p: T -> bool, x: T)
    ensures multiset(Filter(s, p))[x] == if p(x) then multiset(s)[x] else 0
  {
    if |s| > 0 {
      FilterCount(s[1..], p, x);
      assert s == [s[0]] + s[1..];
    }
  }

  /** Elements appended after a match do not move the first match. */
  lemma {:induction false} FirstIndexAppend<T>(s: seq<T>, t: seq<T>, p: T -> bool)
    requires FirstIndex(s, p).Some?
    ensures FirstIndex(s + t, p) == FirstIndex(s, p)
  {
    assert (s + t)[0] == s[0];
    if !p(s[0]) {
      assert (s + t)[1..] == s[1..] + t;
      FirstIndexAppend(s[1..], t, p);
    }
  }

  /** `s` with the element at `k` cut out (`splice(k, 1)`). */
  function RemoveAt<T>(s: seq<T>, k: nat): (r: seq<T>)
    requires k < |s|
    ensures |r| == |s| - 1
    ensures forall i :: 0 <= i < k ==> r[i] == s[i]
    ensures forall i :: k <= i < |r| ==> r[i] == s[i + 1]
    ensures multiset(r) + multiset{s[k]} == multiset(s)
  {
    assert s == s[..k] + [s[k]] + s[k + 1..];
    s[..k] + s[k + 1..]
  }

  /** Filtering out exactly one element is removing it at its index. */
  lemma {:induction false} FilterDropsOne<T>(s: seq<T>, p: T -> bool, k: nat)
    requires k < |s| && !p(s[k])
    requires forall i :: 0 <= i < |s| && i != k ==> p(s[i])
    ensures Filter(s, p) == RemoveAt(s, k)
  {
    var t := s[1..];
    forall i | 0 <= i < |t| && i != k - 1
      ensures p(t[i])
    {
      assert t[i] == s[i + 1];
    }
    FilterHead(s, p);
    if k == 0 {
      FilterAll(t, p);
    } else {
      FilterDropsOne(t, p, k - 1);
      RemoveAtHead(s, k);
    }
  }

  lemma FilterHead<T>(s: seq<T>, p: T -> bool)
    requires |s| > 0
    ensures Filter(s, p) == if p(s[0]) then [s[0]] + Filter(s[1..], p) else Filter(s[1..], p)
  {
  }

  lemma RemoveAtHead<T>(s: seq<T>, k: nat)
    requires 0 < k < |s|
    ensures RemoveAt(s, k) == [s[0]] + RemoveAt(s[1..], k - 1)
  {
  }

  /** `s.map(f)`. */
  function Map<T>(s: seq<T>, f: T -> T): (r: seq<T>)
    ensures |r| == |s|
    ensures forall i :: 0 <= i < |s| ==> r[i] == f(s[i])
  {
    seq(|s|, i requires 0 <= i < |s| => f(s[i]))
  }

  lemma MapHead<T>(s: seq<T>, f: T -> T)
    requires |s| > 0
    ensures Map(s, f) == [f(s[0])] + Map(s[1..], f)
  {
  }

  /** Mapping and filtering commute when the map never changes an element's verdict. */
  lemma {:induction false} FilterMap<T>(s: seq<T>, f: T -> T, p: T -> bool)
    requires forall i :: 0 <= i < |s| ==> p(f(s[i])) == p(s[i])
    ensures Filter(Map(s, f), p) == Map(Filter(s, p), f)
  {
    if |s| > 0 {
      var t := s[1..];
      forall i | 0 <= i < |t|
        ensures p(f(t[i])) == p(t[i])
      {
        assert t[i] == s[i + 1];
      }
      FilterMap(t, f, p);
      MapHead(s, f);
      FilterHead(Map(s, f), p);
      assert Map(s, f)[1..] == Map(t, f);
      FilterHead(s, p);
      if p(s[0]) {
        MapHead(Filter(s, p), f);
      }
    }
  }

  /** Two filters may be applied in either order. */
  lemma {:induction false} FilterCommute<T>(s: seq<T>, p: T -> bool, q: T -> bool)
    ensures Filter(Filter(s, p), q) == Filter(Filter(s, q), p)
  {
    if |s| > 0 {
      FilterCommute(s[1..], p, q);
      FilterHead(s, p);
      FilterHead(s, q);
      if p(s[0]) {
        FilterHead(Filter(s, p), q);
      }
      if q(s[0]) {
        FilterHead(Filter(s, q), p);
      }
    }
  }

  /** A prefix of a suffix is a slice from the middle. */
  lemma PrefixOfSuffix<T>(s: seq<T>, t: seq<T>, r: seq<T>)
    requires |t| <= |s| && t == s[|s| - |t|..]
    requires |r| <= |t| && r == t[..|r|]
    ensures var a := |s| - |t|; a + |r| <= |s| && r == s[a..a + |r|]
  {
  }
}

=== FILE: store.dfy ===
/** The shape all three in-memory services share: an ordered list of records looked
    up by `findIndex(r => r.id === id)`, updated by merging in place and deleted by
    `splice(index, 1)`. A failed operation yields an error and no new list, so the
    caller's list stands unchanged. */
module Store {
  import opened Wrappers
  import Seqs

  /** The errors the services throw; `message` is the source's error text. */
  datatype StoreError =
    | NotFound(message: string)
    | DuplicateName(message: string)
    | ProtectedDefault(message: string)

  /** No record of `s` carries `id`. */
  predicate Absent<T>(s: seq<T>, idOf: T -> string, id: string) {
    forall i :: 0 <= i < |s| ==> idOf(s[i]) != id
  }

  /** `k` is the index `findIndex` returns for `id`. */
  ghost predicate IsFirstWithId<T>(s: seq<T>, idOf: T -> string, id: string, k: int) {
    0 <= k < |s| && idOf(s[k]) == id && forall j :: 0 <= j < k ==> idOf(s[j]) != id
  }

  lemma FirstIsUnique<T>(s: seq<T>, idOf: T -> string, id: string, k: int, k': int)
    requires IsFirstWithId(s, idOf, id, k) && IsFirstWithId(s, idOf, id, k')
    ensures k == k'
  {
  }

  predicate UniqueIds<T>(s: seq<T>, idOf: T -> string) {
    forall i, j :: 0 <= i < j < |s| ==> idOf(s[i]) != idOf(s[j])
  }

  function IndexOf<T>(s: seq<T>, idOf: T -> string, id: string): (r: Option<nat>)
    ensures r.None? <==> Absent(s, idOf, id)
    ensures r.Some? ==> IsFirstWithId(s, idOf, id, r.value)
  {
    Seqs.FirstIndex(s, x => idOf(x) == id)
  }

  /** `getById`: a copy of the first record with that id, or `null`. */
  function GetById<T>(s: seq<T>, idOf: T -> string, id: string): (r: Option<T>)
    ensures r.None? <==> Absent(s, idOf, id)
    ensures r.Some? ==> exists k :: IsFirstWithId(s, idOf, id, k) && r.value == s[k]
  {
    match IndexOf(s, idOf, id)
    case None => None
    case Some(k) => Some(s[k])
  }

  /** `update`: fails with `notFound` on an unknown id; otherwise the first record with
      that id is replaced by `merge` of it and returned, every other position unchanged. */
  function Update<T>(s: seq<T>, idOf: T -> string, id: string, merge: T -> T, notFound: StoreError)
    : (r: Result<(seq<T>, T), StoreError>)
    ensures r.Failure? <==> Absent(s, idOf, id)
    ensures r.Failure? ==> r.error == notFound
    ensures r.Success? ==> exists k :: (IsFirstWithId(s, idOf, id, k)
      && r.value.1 == merge(s[k])
      && |r.value.0| == |s| && r.value.0[k] == r.value.1
      && forall j :: 0 <= j < |s| && j != k ==> r.value.0[j] == s[j])
  {
    match IndexOf(s, idOf, id)
    case None => Failure(notFound)
    case Some(k) => Success((s[k := merge(s[k])], merge(s[k])))
  }

  /** `delete`: fails with `notFound` on an unknown id; otherwise removes and returns the
      first record with that id, the others keeping their order. */
  function Delete<T>(s: seq<T>, idOf: T -> string, id: string, notFound: StoreError)
    : (r: Result<(seq<T>, T), StoreError>)
    ensures r.Failure? <==> Absent(s, idOf, id)
    ensures r.Failure? ==> r.error == notFound
    ensures r.Success? ==> exists k :: (IsFirstWithId(s, idOf, id, k)
      && r.value.1 == s[k] && r.value.0 == Seqs.RemoveAt(s, k))
  {
    match IndexOf(s, idOf, id)
    case None => Failure(notFound)
    case Some(k) => Success((Seqs.RemoveAt(s, k), s[k]))
  }

  /** A record appended under an id no other record carries is found by that id,
      and the ids stay unique. */
  lemma CreateThenGet<T>(s: seq<T>, idOf: T -> string, x: T)
    requires Absent(s, idOf, idOf(x))
    ensures GetById(s + [x], idOf, idOf(x)) == Some(x)
    ensures UniqueIds(s, idOf) ==> UniqueIds(s + [x], idOf)
  {
    var s' := s + [x];
    assert IsFirstWithId(s', idOf, idOf(x), |s|);
    var k :| IsFirstWithId(s', idOf, idOf(x), k) && GetById(s', idOf, idOf(x)).value == s'[k];
    FirstIsUnique(s', idOf, idOf(x), k, |s|);
  }

  /** With unique ids, a deleted record can no longer be found, the ids stay unique,
      and every other id finds what it found before. */
  lemma DeleteThenGet<T>(s: seq<T>, idOf: T -> string, id: string, notFound: StoreError, other: string)
    requires UniqueIds(s, idOf)
    requires Delete(s, idOf, id, notFound).Success?
    requires other != id
    ensures var s' := Delete(s, idOf, id, notFound).value.0;
      GetById(s', idOf, id).None? && UniqueIds(s', idOf) && GetById(s', idOf, other) == GetById(s, idOf, other)
  {
    var k := IndexOf(s, idOf, id).value;
    var s' := Seqs.RemoveAt(s, k);
    assert forall i :: 0 <= i < |s'| ==> s'[i] == s[if i < k then i else i + 1];
    GetOtherAfterRemove(s, idOf, k, other);
  }

  /** Removing one record keeps the remaining ids unique. */
  lemma RemoveKeepsUnique<T>(s: seq<T>, idOf: T -> string, k: nat)
    requires UniqueIds(s, idOf) && k < |s|
    ensures UniqueIds(Seqs.RemoveAt(s, k), idOf)
  {
  }

  lemma GetOtherAfterRemove<T>(s: seq<T>, idOf: T -> string, k: nat, other: string)
    requires k < |s| && idOf(s[k]) != other
    ensures GetById(Seqs.RemoveAt(s, k), idOf, other) == GetById(s, idOf, other)
  {
    var s' := Seqs.RemoveAt(s, k);
    match IndexOf(s, idOf, other)
    case None =>
      assert Absent(s', idOf, other);
    case Some(m) =>
      var m' := if m < k then m else m - 1;
      assert s'[m'] == s[m];
      assert IsFirstWithId(s', idOf, other, m');
      FirstIsUnique(s', idOf, other, IndexOf(s', idOf, other).value, m');
  }

  /** An update that keeps the record's id is visible through `getById`, and no other
      id sees a change. */
  lemma UpdateThenGet<T>(s: seq<T>, idOf: T -> string, id: string, merge: T -> T, notFound: StoreError, other: string)
    requires Update(s, idOf, id, merge, notFound).Success?
    requires forall x :: idOf(merge(x)) == idOf(x)
    ensures var r := Update(s, idOf, id, merge, notFound).value;
      GetById(r.0, idOf, id) == Some(r.1)
      && (other != id ==> GetById(r.0, idOf, other) == GetById(s, idOf, other))
      && (UniqueIds(s, idOf) ==> UniqueIds(r.0, idOf))
  {
    var k := IndexOf(s, idOf, id).value;
    var s' := s[k := merge(s[k])];
    assert forall j :: 0 <= j < |s| ==> idOf(s'[j]) == idOf(s[j]);
    SameIdsSameIndex(s, s', idOf, id);
    SameIdsSameIndex(s, s', idOf, other);
  }

  /** Two lists with the same ids position by position find every id at the same index. */
  lemma SameIdsSameIndex<T>(s: seq<T>, s': seq<T>, idOf: T -> string, id: string)
    requires |s| == |s'| && forall j :: 0 <= j < |s| ==> idOf(s'[j]) == idOf(s[j])
    ensures IndexOf(s', idOf, id) == IndexOf(s, idOf, id)
  {
  }
}

=== FILE: text.dfy ===
/** The string rules the source leans on: `toLowerCase`, `trim`, the
    `replace(/\s+/g, '-')` slug and the `s || fallback` default.
    Case folding is ASCII and whitespace is a fixed set of six characters. */
module Text {
  import Seqs

  /** The characters the model treats as whitespace: space, tab, line feed,
      vertical tab, form feed and carriage return. */
  predicate IsSpace(c: char) {
    c == ' ' || c == '\t' || c == '\n' || c == '\r' || c == '\U{000B}' || c == '\U{000C}'
  }

  predicate IsUpper(c: char) {
    'A' <= c <= 'Z'
  }

  function LowerChar(c: char): (r: char)
    ensures !IsUpper(r)
    ensures IsSpace(c) <==> IsSpace(r)
    ensures !IsUpper(c) ==> r == c
    ensures IsUpper(c) ==> 'a' <= r <= 'z' && r as int - 'a' as int == c as int - 'A' as int
  {
    if IsUpper(c) then (c as int - 'A' as int + 'a' as int) as char else c
  }

  /** `toLowerCase` restricted to ASCII letters. */
  function Lower(s: string): (r: string)
    ensures |r| == |s|
    ensures forall i :: 0 <= i < |r| ==> !IsUpper(r[i])
    ensures forall i :: 0 <= i < |s| ==> (IsSpace(s[i]) <==> IsSpace(r[i]))
    ensures (forall i :: 0 <= i < |s| ==> !IsUpper(s[i])) ==> r == s
    ensures forall i :: 0 <= i < |s| ==> r[i] == LowerChar(s[i])
  {
    seq(|s|, i requires 0 <= i < |s| => LowerChar(s[i]))
  }

  lemma LowerIdempotent(s: string)
    ensures Lower(Lower(s)) == Lower(s)
  {
  }

  /** JavaScript's `length` of a string: the number of UTF-16 code units, so a character
      beyond U+FFFF (an emoji, say) counts twice. */
  function Utf16Length(s: string): (r: nat)
    ensures |s| <= r <= 2 * |s|
  {
    if s == [] then 0 else (if s[0] as int <= 0xFFFF then 1 else 2) + Utf16Length(s[1..])
  }

  /** The UTF-16 length equals the character count exactly when every character lies in
      the Basic Multilingual Plane, and is twice the count exactly when none does. */
  lemma {:induction false} Utf16LengthIff(s: string)
    ensures Utf16Length(s) == |s| <==> forall i :: 0 <= i < |s| ==> s[i] as int <= 0xFFFF
    ensures Utf16Length(s) == 2 * |s| <==> forall i :: 0 <= i < |s| ==> s[i] as int > 0xFFFF
  {
    if s != [] {
      Utf16LengthIff(s[1..]);
      assert forall i :: 1 <= i < |s| ==> s[i] == s[1..][i - 1];
    }
  }

  /** Names compared the way the stores compare them: `a.toLowerCase() === b.toLowerCase()`. */
  predicate EqualsIgnoringCase(a: string, b: string) {
    Lower(a) == Lower(b)
  }

  /** Two characters that are equal or are the same ASCII letter in different cases. */
  predicate SameLetter(x: char, y: char) {
    x == y
    || (IsUpper(x) && y as int - x as int == 'a' as int - 'A' as int)
    || (IsUpper(y) && x as int - y as int == 'a' as int - 'A' as int)
  }

  lemma LowerCharSame(x: char, y: char)
    ensures LowerChar(x) == LowerChar(y) <==> SameLetter(x, y)
  {
  }

  /** Names are equal ignoring case exactly when they have the same length and agree
      position by position up to the case of an ASCII letter. */
  lemma EqualsIgnoringCaseIff(a: string, b: string)
    ensures EqualsIgnoringCase(a, b) <==>
      |a| == |b| && forall i :: 0 <= i < |a| ==> SameLetter(a[i], b[i])
  {
  }

  predicate NoSpace(s: string) {
    forall i :: 0 <= i < |s| ==> !IsSpace(s[i])
  }

  predicate IsBlank(s: string) {
    forall i :: 0 <= i < |s| ==> IsSpace(s[i])
  }

  /** The end of the run of whitespace that starts at `i`. */
  function SpaceRunEnd(s: string, i: nat): (r: nat)
    requires i <= |s|
    ensures i <= r <= |s|
    ensures forall k :: i <= k < r ==> IsSpace(s[k])
    ensures r < |s| ==> !IsSpace(s[r])
    decreases |s| - i
  {
    if i < |s| && IsSpace(s[i]) then SpaceRunEnd(s, i + 1) else i
  }

  /** The start of the run of whitespace that ends just before `j`. */
  function SpaceRunStart(s: string, j: nat): (r: nat)
    requires j <= |s|
    ensures r <= j
    ensures forall k :: r <= k < j ==> IsSpace(s[k])
    ensures r > 0 ==> !IsSpace(s[r - 1])
  {
    if j > 0 && IsSpace(s[j - 1]) then SpaceRunStart(s, j - 1) else j
  }

  /** `s` without its leading whitespace. */
  function TrimStart(s: string): (r: string)
    ensures |r| <= |s| && r == s[|s| - |r|..]
    ensures forall k :: 0 <= k < |s| - |r| ==> IsSpace(s[k])
    ensures |r| > 0 ==> !IsSpace(r[0])
  {
    s[SpaceRunEnd(s, 0)..]
  }

  /** `s` without its trailing whitespace. */
  function TrimEnd(s: string): (r: string)
    ensures |r| <= |s| && r == s[..|r|]
    ensures forall k :: |r| <= k < |s| ==> IsSpace(s[k])
    ensures |r| > 0 ==> !IsSpace(r[|r| - 1])
  {
    s[..SpaceRunStart(s, |s|)]
  }

  /** `r` is the slice of `s` starting at `a` with only whitespace on either side, and
      neither end of `r` is whitespace. */
  predicate TrimmedAt(s: string, a: int, r: string) {
    && 0 <= a && a + |r| <= |s| && r == s[a..a + |r|]
    && (forall k :: 0 <= k < a ==> IsSpace(s[k]))
    && (forall k :: a + |r| <= k < |s| ==> IsSpace(s[k]))
    && (|r| > 0 ==> !IsSpace(r[0]) && !IsSpace(r[|r| - 1]))
  }

  /** `trim()`: the slice of `s` between its leading and trailing whitespace. */
  function Trim(s: string): (r: string)
    ensures TrimmedAt(s, |s| - |TrimStart(s)|, r)
    ensures r == [] <==> IsBlank(s)
  {
    TrimFacts(s);
    TrimBlank(s);
    TrimEnd(TrimStart(s))
  }

  lemma TrimFacts(s: string)
    ensures TrimmedAt(s, |s| - |TrimStart(s)|, TrimEnd(TrimStart(s)))
  {
  }

  lemma TrimIsSlice(s: string)
    ensures var t := TrimStart(s); var r := TrimEnd(t); var a := |s| - |t|;
      0 <= a && a + |r| <= |s| && r == s[a..a + |r|]
  {
  }

  lemma TrimDropsTrailing(s: string)
    ensures var t := TrimStart(s); var r := TrimEnd(t); var a := |s| - |t|;
      forall k :: a + |r| <= k < |s| ==> IsSpace(s[k])
  {
  }

  lemma TrimEndsNotSpace(s: string)
    ensures var r := TrimEnd(TrimStart(s)); |r| > 0 ==> !IsSpace(r[0]) && !IsSpace(r[|r| - 1])
  {
  }

  lemma TrimBlank(s: string)
    ensures TrimEnd(TrimStart(s)) == [] <==> IsBlank(s)
  {
  }

  lemma TrimIdempotent(s: string)
    ensures Trim(Trim(s)) == Trim(s)
  {
  }

  /** Replaces every maximal run of whitespace by a single `-`: `replace(/\s+/g, '-')`. */
  function CollapseSpaces(s: string): (r: string)
    ensures NoSpace(r)
    ensures |r| <= |s|
    decreases |s|
  {
    if |s| == 0 then []
    else if IsSpace(s[0]) then "-" + CollapseSpaces(TrimStart(s))
    else [s[0]] + CollapseSpaces(s[1..])
  }

  /** Text with no whitespace passes through untouched. */
  lemma {:induction false} CollapseNoSpace(w: string, t: string)
    requires NoSpace(w)
    ensures CollapseSpaces(w + t) == w + CollapseSpaces(t)
  {
    if |w| > 0 {
      assert (w + t)[1..] == w[1..] + t;
      CollapseNoSpace(w[1..], t);
    } else {
      assert w + t == t;
    }
  }

  /** A run of whitespace followed by a non-space becomes exactly one hyphen. */
  lemma CollapseRun(sp: string, t: string)
    requires |sp| > 0 && IsBlank(sp)
    requires |t| == 0 || !IsSpace(t[0])
    ensures CollapseSpaces(sp + t) == "-" + CollapseSpaces(t)
  {
    TrimStartBlank(sp, t);
  }

  lemma TrimStartBlank(sp: string, t: string)
    requires IsBlank(sp)
    requires |t| == 0 || !IsSpace(t[0])
    ensures TrimStart(sp + t) == t
  {
    var s := sp + t;
    SpaceRunEndAt(s, 0, |sp|);
    assert s[|sp|..] == t;
  }

  /** A run of whitespace from `i` that stops at `m` ends at `m`. */
  lemma {:induction false} SpaceRunEndAt(s: string, i: nat, m: nat)
    requires i <= m <= |s|
    requires forall k :: i <= k < m ==> IsSpace(s[k])
    requires m < |s| ==> !IsSpace(s[m])
    ensures SpaceRunEnd(s, i) == m
    decreases m - i
  {
    if i < m {
      SpaceRunEndAt(s, i + 1, m);
    }
  }

  /** Two words joined by any non-empty run of whitespace slug to the words joined by one `-`. */
  lemma CollapseBetweenWords(w1: string, sp: string, w2: string)
    requires NoSpace(w1) && NoSpace(w2)
    requires |sp| > 0 && IsBlank(sp)
    ensures CollapseSpaces(w1 + sp + w2) == w1 + "-" + w2
  {
    var tail := sp + w2;
    calc {
      CollapseSpaces(w1 + sp + w2);
      { assert w1 + sp + w2 == w1 + tail; }
      CollapseSpaces(w1 + tail);
      { CollapseNoSpace(w1, tail); }
      w1 + CollapseSpaces(tail);
      { CollapseRun(sp, w2); }
      w1 + ("-" + CollapseSpaces(w2));
      { CollapseNoSpace(w2, []); assert w2 + [] == w2; }
      w1 + ("-" + w2);
    }
  }

  /** The identifier the registries derive from a name:
      `name.toLowerCase().replace(/\s+/g, '-')`. */
  function Slugify(name: string): (r: string)
    ensures NoSpace(r)
    ensures forall i :: 0 <= i < |r| ==> !IsUpper(r[i])
    ensures |r| <= |name|
    ensures NoSpace(name) ==> r == Lower(name)
  {
    SlugFacts(name);
    CollapseSpaces(Lower(name))
  }

  lemma SlugFacts(name: string)
    ensures forall i :: 0 <= i < |CollapseSpaces(Lower(name))| ==> !IsUpper(CollapseSpaces(Lower(name))[i])
    ensures NoSpace(name) ==> CollapseSpaces(Lower(name)) == Lower(name)
  {
    var l := Lower(name);
    CollapseLower(l);
    if NoSpace(name) {
      CollapseNoSpace(l, []);
      assert l + [] == l;
    }
  }

  /** Collapsing never introduces an upper-case letter. */
  lemma {:induction false} CollapseLower(s: string)
    requires forall i :: 0 <= i < |s| ==> !IsUpper(s[i])
    ensures forall i :: 0 <= i < |CollapseSpaces(s)| ==> !IsUpper(CollapseSpaces(s)[i])
    decreases |s|
  {
    if |s| > 0 {
      if IsSpace(s[0]) {
        CollapseLower(TrimStart(s));
      } else {
        CollapseLower(s[1..]);
      }
    }
  }

  /** Names equal ignoring case get the same identifier. */
  lemma SlugIgnoresCase(a: string, b: string)
    requires EqualsIgnoringCase(a, b)
    ensures Slugify(a) == Slugify(b)
  {
  }

  /** A slug is its own slug. */
  lemma SlugIdempotent(name: string)
    ensures Slugify(Slugify(name)) == Slugify(name)
  {
  }

  /** The JavaScript `s || fallback` on a string field, with an absent field written as `""`. */
  function OrElse(s: string, fallback: string): (r: string)
    ensures s != "" ==> r == s
    ensures s == "" ==> r == fallback
  {
    if s == "" then fallback else s
  }
}

=== FILE: trip_service.dfy ===
/** The trip store (src/services/api/tripService.js). The id `Date.now()` would produce
    is the parameter `newId`. Deleting a trip leaves its expenses in place. */
module TripService {
  import opened Wrappers
  import opened Records
  import Seqs
  import Store

  function TripId(t: Trip): string { t.id }

  /** `getById`: the first trip with that id, or `null`. */
  function GetById(s: seq<Trip>, id: string): (r: Option<Trip>)
    ensures r.None? <==> forall i :: 0 <= i < |s| ==> s[i].id != id
    ensures r.Some? ==> exists k :: Store.IsFirstWithId(s, TripId, id, k) && r.value == s[k]
  {
    Store.GetById(s, TripId, id)
  }

  /** `create`: appends the data under `newId` with status `active`, whatever status the
      data carried; every other field is taken as given. */
  function Create(s: seq<Trip>, data: Trip, newId: string): (r: (seq<Trip>, Trip))
    ensures r.0 == s + [r.1]
    ensures r.1.id == newId && r.1.status == "active"
    ensures r.1.(id := data.id, status := data.status) == data
  {
    var t := data.(id := newId, status := "active");
    (s + [t], t)
  }

  /** `update`: "Trip not found" on an unknown id; otherwise the first trip with that id
      becomes the merge of its fields with `patch`, all other trips unchanged. */
  function Update(s: seq<Trip>, id: string, patch: TripPatch): (r: Result<(seq<Trip>, Trip), Store.StoreError>)
    ensures r.Failure? <==> forall i :: 0 <= i < |s| ==> s[i].id != id
    ensures r.Failure? ==> r.error == Store.NotFound("Trip not found")
    ensures r.Success? ==> exists k :: (Store.IsFirstWithId(s, TripId, id, k)
      && r.value.1 == MergeTrip(s[k], patch)
      && |r.value.0| == |s| && r.value.0[k] == r.value.1
      && forall j :: 0 <= j < |s| && j != k ==> r.value.0[j] == s[j])
  {
    Store.Update(s, TripId, id, t => MergeTrip(t, patch), Store.NotFound("Trip not found"))
  }

  /** `delete`: "Trip not found" on an unknown id; otherwise removes and returns the first
      trip with that id, the others keeping their order. */
  function Delete(s: seq<Trip>, id: string): (r: Result<(seq<Trip>, Trip), Store.StoreError>)
    ensures r.Failure? <==> forall i :: 0 <= i < |s| ==> s[i].id != id
    ensures r.Failure? ==> r.error == Store.NotFound("Trip not found")
    ensures r.Success? ==> exists k :: (Store.IsFirstWithId(s, TripId, id, k)
      && r.value.1 == s[k] && r.value.0 == Seqs.RemoveAt(s, k))
  {
    Store.Delete(s, TripId, id, Store.NotFound("Trip not found"))
  }

  /** Read-after-write for trips with unique ids: a created trip is found under its fresh
      id, an update that does not rename is seen by `getById`, and a deleted trip is gone
      while every other id finds what it found before. */
  lemma TripReadAfterWrite(s: seq<Trip>, data: Trip, newId: string, id: string, patch: TripPatch, other: string)
    requires Store.UniqueIds(s, TripId)
    requires forall i :: 0 <= i < |s| ==> s[i].id != newId
    requires patch.id.None? && other != id
    ensures var c := Create(s, data, newId); GetById(c.0, newId) == Some(c.1) && Store.UniqueIds(c.0, TripId)
    ensures Update(s, id, patch).Success? ==>
      var u := Update(s, id, patch).value;
      GetById(u.0, id) == Some(u.1) && GetById(u.0, other) == GetById(s, other)
      && Store.UniqueIds(u.0, TripId)
    ensures Delete(s, id).Success? ==>
      var d := Delete(s, id).value.0;
      GetById(d, id).None? && GetById(d, other) == GetById(s, other) && Store.UniqueIds(d, TripId)
  {
    Store.CreateThenGet(s, TripId, Create(s, data, newId).1);
    var merge := t => MergeTrip(t, patch);
    if Update(s, id, patch).Success? {
      Store.UpdateThenGet(s, TripId, id, merge, Store.NotFound("Trip not found"), other);
    }
    if Delete(s, id).Success? {
      Store.DeleteThenGet(s, TripId, id, Store.NotFound("Trip not found"), other);
    }
  }
}

=== FILE: wrappers.dfy ===
/** Failure-carrying values: `Option` for the source's `undefined`/`null`
    results and `Result` for operations that throw. */
module Wrappers {

  datatype Option<+T> = None | Some(value: T) {

    /** The carried value, or `default` when there is none (the source's `x || default`
        when `x` may be missing). */
    function GetOr(default: T): T {
      match this
      case Some(v) => v
      case None => default
    }
  }

  datatype Result<+R, +E> = Success(value: R) | Failure(error: E)
}
